=== FILE: README.md ===
# Simulated order and portfolio engine of the stock-analysis-engine backtester

This project models, in Dafny, the part of `analysis_engine` that simulates
trading during a backtest:

- the buy-order builder `build_buy_order`, which decides whether a buy at a
  reference close fills, is short of funds, or stays open, and computes the
  trade cost and the post-trade balance and share count;
- the ledger of `BaseAlgo`: the per-ticker `positions` (shares, buys, sells),
  the running `balance` and the global `buys`/`sells` lists, updated by
  `create_buy_order` and `create_sell_order`;
- the market state refreshed by `load_from_dataset` from the last row of a
  node's daily and minute tables (`today_*`, `latest_*`, `trade_price`,
  `starting_close`, dates, signal flags);
- the driver `handle_data`, which visits the algorithm's tickers that have
  data, runs each of their dataset nodes through load, the default
  `process` decision step and the history recorder, plus `get_result`,
  `reset_for_next_run`, `load_from_config` and the constructor's ticker
  handling.

Modelling choices:

- Money and prices are integer cents (`Dataset.Cents`). The source's
  `to_f` rounding to two decimals is then the identity, and the thresholds
  0.1 and 10.0 become 10 and 1000 cents. `int(tradable / close)` is Dafny's
  floor division, which agrees with Python's truncation because both
  operands are positive at that point.
- A table is a set of column names and a sequence of rows, each a map from
  column name to a `Value` (a number, a non-numeric string, a missing cell,
  or the driver's algorithm-id label). The algorithm's "empty" table has one
  row and no columns, as `pd.DataFrame([{}])` does.
- The state of `BaseAlgo` is the immutable record `Algo.Algo`. Every
  operation is a pure function to the next state, or to a `Failure` carrying an
  `Algo.AlgoError` when an
  exception escapes. What the object holds after an escaping exception is
  not modelled.
- `build_sell_order` and `build_trade_history_entry` are not part of this
  model. They are function-typed parameters: `Orders.SellBuilder` returns a
  sell order (`status`, `shares`, `balance`, `sell_price`) or `None` when it
  raises, and `Algo.Recorder` returns a history entry of any type, or
  `None` for an empty one.
- The source's accounting is modelled as written. A filled order on an
  existing position adds the order's `shares` field to the stored count.
  For a buy that field is the post-trade total, so the holding is
  overstated by the shares held before the buy. For a sell the count goes
  up, not down. `Ledger.FirstFilledBuyReconciles` proves that the count
  equals the net shares bought after a ticker's first fill.
  `Ledger.RepeatFilledBuyOvercounts` and
  `DriverProps.TwoBuysStoreThreeShares` prove by how much later buys
  overstate it.
- The default `process` switches both signals off before testing them, so
  its only possible trade is the closing sell of a held position. Its
  sell-then-buy-then-closing-sell sequence is `Driver.ExecuteSignals`, and
  `Driver.Process` applies it after clearing the flags.

## Model

| member | source | states |
|---|---|---|
| Orders.BuildBuyOrder | analysis_engine/build_buy_order.py:57-113 | A close of at most 0.10 or tradable funds (balance less two commissions) of at most 10.00 give not-enough-funds: balance and shares unchanged, no buy price, no timestamp. Past that gate the buy price is the sized count times close plus commission. A count of zero or less, or a cost above the balance, gives not-enough-funds. Otherwise the order fills when auto-fill is on: shares become the holding plus the count, and the balance becomes balance less cost, which is never negative. With auto-fill off the order stays open, the balance stays unchanged, and `shares` is the requested argument. Every outcome echoes ticker, close, date, details, reason, version, previous balance and previous shares. |
| Orders.BuiltOrdersAreWellFormed | analysis_engine/build_buy_order.py:82-85 | Every filled order the builder produces carries a share count. |
| Orders.FilledBuyAcquiresCount | analysis_engine/build_buy_order.py:72-85 | A filled buy acquires exactly the sized share count, which is positive. |
| Orders.AutoSizeIsLargestAffordable | analysis_engine/build_buy_order.py:69-74 | With no requested count, the count is the largest whole number of shares whose price fits within the tradable funds. |
| Orders.AutoSizedBuyFills | analysis_engine/build_buy_order.py:69-85 | Take an automatically sized buy that passes the first gate, with a non-negative commission, where at least one share is affordable. It always fills, and the balance left is at least one commission. |
| Orders.NegativeRequestRejected | analysis_engine/build_buy_order.py:72-90 | A negative requested count is truthy, so it is used as given. It always gives not-enough-funds, with balance and shares unchanged. |
| Orders.WorkedBuyFills | analysis_engine/build_buy_order.py:69-85 | Balance 1000.00, commission 6.00, close 270.00, no requested count: 3 shares for 816.00, filled, balance 184.00. |
| Orders.WorkedBuyShortOfFunds | analysis_engine/build_buy_order.py:69-92 | Balance 5.00 with commission 6.00 is not enough funds at any close. The balance stays at 5.00 and the shares at 0. |
| Dataset.TableAt | analysis_engine/algo.py:2408-2484 | A missing sub-table key, or a value without a row index, becomes the empty table. A table is taken as given. |
| Dataset.LastValue | analysis_engine/algo.py:2497-2533 | Reading the last row fails exactly when the table has no rows. Otherwise it yields that row's cell, or the missing-cell value `Null` when the last row lacks the column. |
| Ledger.TickerPosition | analysis_engine/algo.py:1896-1909 | A ticker never filled has no position (the `(None, None, None)` triple). Otherwise the stored shares, buys and sells are returned. |
| Ledger.OwnedShares | analysis_engine/algo.py:2054-2059 | The owned count is 0 for a ticker never filled, else the stored shares. |
| Ledger.LookupsAgree | analysis_engine/algo.py:2047-2059 | The owned count equals the looked-up position's count, and is zero when there is no position. |
| Ledger.CommitBuy | analysis_engine/algo.py:2116-2166 | Every order is appended to the global buys. An unfilled order leaves positions and balance unchanged. A fill on a new ticker opens a position with the order's shares and the order as its only buy. A fill on an existing position adds the order's shares to the stored count and appends the order. A fill sets the balance to the order's. Other tickers are untouched. |
| Ledger.CommitSell | analysis_engine/algo.py:2238-2288 | The mirror of `CommitBuy` for sells. An existing position's count also goes up by the order's shares. |
| Ledger.FilledSellNeverLowersCount | analysis_engine/algo.py:2245-2250 | A filled sell on an existing position adds the order's shares to the stored count, so a sell of a non-negative count never lowers the reported holding. |
| Ledger.FirstFilledBuyReconciles | analysis_engine/algo.py:2134-2142 | After a ticker's first filled buy, the stored count equals the net shares its buys acquired. |
| Ledger.RepeatFilledBuyOvercounts | analysis_engine/algo.py:2124-2126 | Take a filled buy on a position whose count matched its buys. The new count exceeds the net shares bought by exactly the shares held before the buy. |
| Market.Set | analysis_engine/algo.py:2494-2533 | Storing a cell sets only its own field. A close also sets the trade price, and sets the starting close only while it is zero. Ask and bid are untouched. |
| Market.Apply | analysis_engine/algo.py:2494-2533 | An absent column is a no-op. A present column whose last cell is a number stores that number. Any other cell fails. |
| Market.AbsentColumnKept | analysis_engine/algo.py:2494-2533 | A `today_*` or `latest_*` field whose column is absent keeps its prior value through the refresh. |
| Market.StartingCloseKept | analysis_engine/algo.py:2509-2530 | Once the starting close is non-zero, no refresh changes it. |
| Market.QuoteKept | analysis_engine/algo.py:2493-2545 | The refresh never changes ask or bid. |
| Market.FailsIffBadCell | analysis_engine/algo.py:2493-2545 | The refresh fails exactly when some update reads a present column whose last cell does not coerce, or whose table has no rows. |
| Market.FailureKeepsPrefix | analysis_engine/algo.py:2493-2545 | A failed refresh keeps the updates made before the failing one and abandons the rest. |
| Market.TradePriceIsLastClose | analysis_engine/algo.py:2506-2530 | After a successful refresh, the trade price is the last close read, or the old trade price if no close column was present. |
| Market.TradePricePrefersMinute | analysis_engine/algo.py:2506-2530 | After a successful refresh, the trade price is the minute close if the minute table has a close column. Otherwise it is the daily close if the daily table has one. Otherwise it is unchanged. |
| Market.NoColumnsNoChange | analysis_engine/algo.py:2494-2533 | Tables without columns leave the whole market state unchanged, without failure. |
| Market.AbsentUpdatesNoChange | analysis_engine/algo.py:2494-2533 | Updates whose columns are all absent neither change the state nor fail. |
| Market.PresentCellCoerces | analysis_engine/algo.py:2493-2545 | After a successful refresh, every update that read a present column read a cell that coerces. |
| Market.RefreshClosingPrice | analysis_engine/algo.py:2506-2530 | Of the ten refresh updates only the daily and then the minute close set the trade price: the last close read is the minute close when present and numeric, else the daily close when present and numeric, else the old price. |
| Market.RefreshPrices | analysis_engine/algo.py:2493-2545 | The refresh of a load never changes ask or bid, and keeps a starting close that is already non-zero. |
| Algo.Upper | analysis_engine/algo.py:441-445 | Upper-casing keeps the length, turns each lower-case ASCII letter into its capital, and keeps every other character. |
| Algo.InitialFrames | analysis_engine/algo.py:505-519 | A new algorithm holds a table for each data key. |
| Algo.AlgoName | analysis_engine/algo.py:551-552 | A missing or empty name becomes `'myalgo'`; any other name is kept. |
| Algo.NewAlgo | analysis_engine/algo.py:436-851 | Construction fails exactly when there is neither a ticker list nor a non-empty ticker. The tickers are the list, else the upper-cased ticker, and the name defaults to `'myalgo'`. The new algorithm has no positions, no orders, no history and no owned count. The constructor's configuration is replayed last: the balance, starting balance, commission, starting close, trade price, `raise_on_err`, version and the four signal/created flags take a configured value of their kind, else the constructor's argument, or zero and false for the initial market and flags. |
| Algo.NewAlgoWithoutConfig | analysis_engine/algo.py:446-524 | With a configuration that names no known attribute, the new algorithm holds an empty ledger with the starting balance, the initial market state, the given commission, `raise_on_err` and version, and cleared flags. |
| Algo.NewAlgoReplayStable | analysis_engine/algo.py:850-851 | Replaying the constructor's configuration again on the new algorithm changes nothing. |
| Algo.RefreshCounts | analysis_engine/algo.py:2181-2184 | The mirrored owned count, buys list and sells list become the ledger position's shares, buys and sells, or all `None` without a position. Nothing else changes. |
| Algo.LoadFromConfig | analysis_engine/algo.py:1984-1987 | Each of the eleven known attributes named in the configuration with a value of its kind takes the configured value; every other attribute keeps its value. A configuration naming no known attribute changes nothing. Positions, orders, history and tickers are never overwritten. |
| Algo.ConfigReplayIdempotent | analysis_engine/algo.py:1984-1987 | Replaying a configuration twice has the same effect as replaying it once. |
| Algo.Snapshot | analysis_engine/algo.py:1930-1969 | The history builder is given the current balance, the trade price as close, the starting close and starting balance, the owned count, the previous balance, the trade date and the two signal flags. |
| Algo.SnapshotCarriesState | analysis_engine/algo.py:1930-1969 | It is also given the ticker, commission, market state, previous count, the position's buys and sells, the dataset id and the version. |
| Algo.Record | analysis_engine/algo.py:2712-2714 | The history gains the built entry when it is non-empty, and is unchanged otherwise. Nothing else changes. |
| Algo.GetResult | analysis_engine/algo.py:2002-2013 | The report's processed count is the history length. It carries the history, balance, commission, open positions, buys and sells. |
| Algo.ResetForNextRun | analysis_engine/algo.py:2559-2563 | The history is emptied and the loaded dataset dropped. Nothing else changes. |
| Algo.ResetReportsNothingProcessed | analysis_engine/algo.py:2563 | After a reset the report counts zero processed nodes and keeps the balance. |
| Driver.CreateBuyOrder | analysis_engine/algo.py:2062-2186 | A row without `close` or `date` raises. A non-numeric close makes the builder raise. That is an error in strict mode. Otherwise nothing is recorded, and only the counts are refreshed. Otherwise the builder is called with the ledger's count and the current balance. The ledger becomes exactly the result of committing its order: appended to buys, and on a fill the balance set and the position opened or its count increased by the order's shares, other tickers untouched. An unfilled order leaves balance and positions unchanged. `created_buy` turns true exactly for a fill on an existing position. The counts are refreshed from the ledger, and nothing else changes. |
| Driver.CreateSellOrder | analysis_engine/algo.py:2188-2308 | The mirror of `CreateBuyOrder` through the sell builder, for sells and `created_sell`. When the builder returns an order, the ledger becomes exactly the result of committing it, so a fill on an existing position adds the order's shares to the count. |
| Driver.LoadFrames | analysis_engine/algo.py:2405-2484 | Every data key gets a table: the node's table, or the empty table when the key is missing or holds a non-table. |
| Driver.LoadFromDataset | analysis_engine/algo.py:2353-2546 | A node without data, or a minute `date` column without rows, raises. A refresh failure raises only in strict mode. Otherwise the backtest and trade dates become the node's date, the `created_*` and `should_*` flags are cleared, and the previous ids are kept. The tables are loaded, and the market state is the (possibly partial) refresh. The ledger, the owned count, the history, the previous balance, the ticker and the strict-mode flag are untouched. |
| Driver.LoadFromDatasetFrame | analysis_engine/algo.py:2392-2545 | A successful load writes only the dataset ids and dates, the tables, the latest minute, the backtest and trade dates, the `created_*`/`should_*` flags and the market state. Every other field is kept, including the mirrored buys and sells, commission, starting balance, tickers, version, previous count, name and loaded dataset. |
| Driver.ExecuteSignals | analysis_engine/algo.py:1015-1046 | With both signals off, the only trade is a sell when shares are owned and no sell has hit an existing position this step. With nothing owned and no buy signal it does nothing. History, dates, market state and signals are unchanged. |
| Driver.Process | analysis_engine/algo.py:997-1046 | The default decision step clears both signals. It then sells at 270.00 exactly when shares are owned and `created_sell` is false. |
| Driver.Step | analysis_engine/algo.py:2638-2719 | A node without `id` or `date` raises. After a step, `prev_bal` is the balance at step start, the ticker is current, and the backtest and trade dates are the node's date. The signals are off. The history is extended by at most one entry, and by exactly one when the history builder never returns an empty entry. |
| Driver.SupportedTickers | analysis_engine/algo.py:2331-2351 | A ticker is visited exactly when it is one of the algorithm's tickers and has data. |
| Driver.RunNodes | analysis_engine/algo.py:2638-2719 | No nodes changes nothing. A successful run over one ticker's nodes keeps the earlier history as a prefix. |
| Driver.RunTickers | analysis_engine/algo.py:2635-2720 | No tickers changes nothing. A successful run over the supported tickers keeps the earlier history as a prefix. |
| Driver.RunData | analysis_engine/algo.py:2615-2623 | A non-empty loaded dataset replaces the given data; otherwise the given data is used. |
| Driver.HandleData | analysis_engine/algo.py:2566-2731 | Without a supported ticker `handle_data` changes nothing. A successful run only appends to the history, never editing or removing earlier entries. |
| DriverProps.SupportedTickersDistribute | analysis_engine/algo.py:2343-2347 | Filtering distributes over concatenation, so the visited tickers keep the algorithm's order. |
| DriverProps.SupportedTickersAllPresent | analysis_engine/algo.py:2343-2347 | When every ticker has data, all are visited, in order. |
| DriverProps.RunNodesHistory | analysis_engine/algo.py:2638-2719 | Over one ticker's nodes, a successful run's history only grows, by at most one entry per node, and by exactly one per node when no entry is empty. |
| DriverProps.RunNodesIdentified | analysis_engine/algo.py:2638-2650 | A run over one ticker's nodes succeeds only if every node has an `id` and a `date`. |
| DriverProps.RunTickersIdentified | analysis_engine/algo.py:2635-2650 | A run over several tickers succeeds only if every node of every one of them has an `id` and a `date`. |
| DriverProps.HandleDataIdentified | analysis_engine/algo.py:2615-2650 | A successful `handle_data` visited only nodes with an `id` and a `date`: every node of every algorithm ticker in the data it used. |
| DriverProps.RunNodesEndsOnLastNode | analysis_engine/algo.py:2638-2719 | A successful run over a ticker's nodes ends with that ticker current and the last node's date as trade date. |
| DriverProps.RunTickersHistory | analysis_engine/algo.py:2635-2720 | The same over all visited tickers for a successful run, counting every node of every ticker. |
| DriverProps.HandleDataCountsNodes | analysis_engine/algo.py:2615-2720 | After a successful `handle_data` whose entries are never empty, the reported processed count grows by the number of nodes of the supported tickers. A non-empty loaded dataset replaces the given data. |
| DriverProps.StepSellsHeldPosition | analysis_engine/algo.py:1038-1046 | In a successful step of a ticker whose ledger count is non-zero, a sell order is recorded whenever the sell builder returns one, and no buy is made. |
| DriverProps.StepClosingSellNeverLowersCount | analysis_engine/algo.py:1038-1046 | When the sell builder always fills a non-negative count, a successful step of a held ticker leaves its ledger count at least where it was, because the closing sell adds to the count. |
| DriverProps.StepWithoutHoldingTradesNothing | analysis_engine/algo.py:1015-1046 | In a successful step of a ticker the ledger holds nothing of, the ledger is unchanged. |
| DriverProps.LoadWithoutDailyKeepsToday | analysis_engine/algo.py:2494-2513 | In a successful load, a daily table without columns leaves every `today_*` field at its prior value. |
| DriverProps.LoadEmptyNode | analysis_engine/algo.py:2408-2533 | A node with an empty data dictionary still loads. The dates advance and the signals clear, while the market state is unchanged. |
| DriverProps.FirstBuyReconciles | analysis_engine/algo.py:2102-2142 | A ticker's first filled buy leaves a position whose count equals the shares bought. |
| DriverProps.RepeatBuyOverstates | analysis_engine/algo.py:2124-2133 | A filled buy on a matching existing position sets `created_buy` and overstates the count by the shares held before it. |
| DriverProps.TwoBuysStoreThreeShares | analysis_engine/algo.py:2124-2142 | Two one-share buys at 270.00 from 1000.00 with commission 6.00 leave 448.00. The ledger stores 3 shares for the 2 bought. |

## Left out

- Publishing, the S3/Redis/Slack/file configuration of `__init__`, `load_from_external_source` and the dataset conversions for reports, history and input files: I/O only. The loaded dataset appears only as an optional state field that `handle_data` prefers.
- The indicator processor: an external hook, taken as a no-op.
- Logging, `debug_msg`, `build_progress_label`, and timestamps (`created`, `updated`, `utc_now_str`): diagnostic or wall-clock values. The buy order only records whether it was stamped.
- The algorithm id is kept as a structured label (ticker, progress, total) rather than the formatted string, because `get_percent_done` is not part of this model.
- The bodies of `build_sell_order` and `build_trade_history_entry` are not part of this model; they are parameters. The sell order's share count is assumed to be an integer.
- Dataset.LastValue: a present column missing from the last row reads as `Null`, and `Market.Apply` then fails the refresh. In the source that cell is NaN: `float(nan)` stores NaN in a price field without raising, and only the `volume` field's `int(nan)` raises. NaN is not representable in integer cents.
- Driver.LoadFrames: a slot holding a non-table value that has an `index` method (a string or a list) is not represented. The source keeps such a value, then fails the refresh at its `columns` lookup (caught, so the whole refresh is abandoned in lenient mode), or raises uncaught when a minute value contains `'date'`. The model only distinguishes tables from values without an `index` attribute, which become the empty table.
- Algo.Snapshot: the history builder is given the position's order lists as immutable sequences. The source passes the live `buys`/`sells` lists of the position, which later fills append to in place, so a stored history entry holding them changes afterwards; that aliasing is not modelled.
- `to_f` and IEEE-float coercion: money is exact integer cents, so prices with fractions of a cent, NaN cells and numeric strings are not represented. A non-numeric cell is a coercion failure.
- Algo.Upper: only ASCII letters are upper-cased, whereas Python's `str.upper()` also maps non-ASCII letters (and can lengthen a string, as `'ß'` becomes `'SS'`); ticker symbols are ASCII.
- The buy order's S3/Redis key fields and `last_ds_data`/`last_handle_data`/`last_history_dict`: only used for publishing and debugging.
- History-entry fields that the base algorithm changes only when a replayed configuration names them (strength/risk scores, stop losses, hold units, spread expiry, note, trade type) are not part of `Algo.HistoryInput`, and `Algo.LoadFromConfig` does not replay them.
- Algo.LoadFromConfig: only eleven attributes (balance, starting balance, commission, starting close, trade price, `raise_on_err`, the four signal/created flags, version) can be replayed. A value of the wrong kind is ignored, whereas the source would store any value under any attribute name.
- Algo.NewAlgo: the constructor's configuration is replayed through `Algo.LoadFromConfig`, so only its eleven attributes are replayed; a configured `name` or the `trade_horizon` settings the constructor reads from it are not modelled.
- Orders.BuildBuyOrder: prices are integer cents, so the float rounding of `to_f` and of `int(tradable / close)` is not modelled.

=== FILE: algo.dfy ===
/** The algorithm's state record and the members that read or reset it as a
    whole: construction, position lookups, configuration replay, the history
    snapshot, the result report and the reset between runs. */
module Algo {
  import opened Results
  import opened Dataset
  import opened Orders
  import opened Ledger
  import opened Market

  /** Exceptions that escape an operation. */
  datatype AlgoError =
    | NoTicker                  // neither a ticker nor a ticker list was given
    | MissingKey(key: string)   // a dictionary lookup without default failed
    | MissingData               // a node without a `data` dictionary
    | NoMinuteRows              // a minute table with a `date` column but no rows
    | PricesFailed              // a market-state cell did not coerce (strict mode)
    | BuyFailed                 // the buy-order builder raised (strict mode)
    | SellFailed                // the sell-order builder raised (strict mode)

  /** The values the algorithm hands its history-entry builder. */
  datatype HistoryInput = HistoryInput(
    ticker: Option<string>,
    algoStartPrice: Cents,
    originalBalance: Cents,
    numOwned: Option<int>,
    close: Cents,
    balance: Cents,
    commission: Cents,
    date: Option<string>,
    market: MarketState,
    prevBalance: Option<Cents>,
    prevNumOwned: Option<int>,
    totalBuys: Option<seq<BuyOrder>>,
    totalSells: Option<seq<SellOrder>>,
    buyTriggered: bool,
    sellTriggered: bool,
    dsId: Option<string>,
    version: int)

  /** The history-entry builder, whose body is not part of this model;
      `None` stands for an empty or missing entry. */
  type Recorder<H> = HistoryInput -> Option<H>

  /** The state of one running algorithm. `numOwned`, `numBuys` and
      `numSells` mirror the position of the ticker last traded or loaded;
      despite their names (kept from the algorithm's own attributes),
      `numBuys` and `numSells` hold that position's order lists, not
      counts. */
  datatype Algo<H> = Algo(
    name: Option<string>,
    tickers: seq<string>,
    ticker: Option<string>,
    book: Book,
    startingBalance: Cents,
    commission: Cents,
    numOwned: Option<int>,
    numBuys: Option<seq<BuyOrder>>,
    numSells: Option<seq<SellOrder>>,
    market: MarketState,
    latestMin: Option<Value>,
    backtestDate: Option<string>,
    tradeDate: Option<string>,
    dsId: Option<string>,
    dsDate: Option<string>,
    lastDsId: Option<string>,
    lastDsDate: Option<string>,
    frames: map<string, Table>,
    createdBuy: bool,
    shouldBuy: bool,
    createdSell: bool,
    shouldSell: bool,
    prevBal: Option<Cents>,
    prevNumOwned: Option<int>,
    history: seq<H>,
    loadedDataset: Option<Data>,
    raiseOnErr: bool,
    version: int)

  /** Python truthiness of an optional share count. */
  predicate Holds(n: Option<int>) {
    n.Some? && n.value != 0
  }

  function UpperChar(c: char): char {
    if 'a' <= c <= 'z' then (c as int - 32) as char else c
  }

  /** Upper-casing of a ticker symbol: lower-case ASCII letters become
      their capitals, every other character is kept. */
  function Upper(s: string): (r: string)
    ensures |r| == |s|
    ensures forall i :: 0 <= i < |s| && 'a' <= s[i] <= 'z' ==> r[i] as int == s[i] as int - 32
    ensures forall i :: 0 <= i < |s| && !('a' <= s[i] <= 'z') ==> r[i] == s[i]
  {
    seq(|s|, i requires 0 <= i < |s| => UpperChar(s[i]))
  }

  /** The tables an algorithm starts with: the one-row empty table, except
      a row-less one for financials. */
  function InitialFrames(): (r: map<string, Table>)
    ensures forall k :: k in r <==> k in FrameKeys
  {
    map k | k in FrameKeys :: if k == "financials" then Table({}, []) else EmptyTable
  }

  /** The name an algorithm reports: the given one, else `"myalgo"`. */
  function AlgoName(name: Option<string>): (r: Option<string>)
    ensures name.None? || name == Some("") ==> r == Some("myalgo")
    ensures name.Some? && name != Some("") ==> r == name
  {
    if name.None? || |name.value| == 0 then Some("myalgo") else name
  }

  /** A new algorithm: the ticker list, else the upper-cased single ticker;
      neither is an error. Nothing is owned and nothing has been loaded.
      The constructor's configuration is replayed last, so it may overwrite
      the balances, the commission, the starting close, the trade price,
      the flags and the version it names. */
  function NewAlgo<H>(ticker: Option<string>, tickers: seq<string>, balance: Cents,
                      commission: Cents, name: Option<string>, raiseOnErr: bool,
                      version: int, cfg: map<string, Setting>): (r: Result<Algo<H>, AlgoError>)
    ensures r.Failure? <==> |tickers| == 0 && (ticker.None? || |ticker.value| == 0)
    ensures r.Success? ==>
      && r.value.tickers == (if |tickers| > 0 then tickers else [Upper(ticker.value)])
      && (name.None? || name == Some("") ==> r.value.name == Some("myalgo"))
      && (name.Some? && name != Some("") ==> r.value.name == name)
      && r.value.book.positions == map[] && r.value.book.buys == [] && r.value.book.sells == []
      && r.value.history == []
      && r.value.numOwned.None?
    ensures r.Success? ==>
      && r.value.book.balance == NumberSetting(cfg, "balance", balance)
      && r.value.startingBalance == NumberSetting(cfg, "starting_balance", balance)
      && r.value.commission == NumberSetting(cfg, "commission", commission)
      && r.value.market == InitialMarket.(startingClose := NumberSetting(cfg, "starting_close", 0),
                                          tradePrice := NumberSetting(cfg, "trade_price", 0))
      && r.value.raiseOnErr == FlagSetting(cfg, "raise_on_err", raiseOnErr)
      && r.value.version == NumberSetting(cfg, "version", version)
    ensures r.Success? ==>
      && r.value.createdBuy == FlagSetting(cfg, "created_buy", false)
      && r.value.createdSell == FlagSetting(cfg, "created_sell", false)
      && r.value.shouldBuy == FlagSetting(cfg, "should_buy", false)
      && r.value.shouldSell == FlagSetting(cfg, "should_sell", false)
  {
    if |tickers| == 0 && (ticker.None? || |ticker.value| == 0) then Failure(NoTicker)
    else
      var ts := if |tickers| > 0 then tickers else [Upper(ticker.value)];
      var initial := Algo(AlgoName(name), ts, None, Book(map[], balance, [], []), balance, commission,
                        None, None, None, InitialMarket, None, None, None, None, None, None, None,
                        InitialFrames(), false, false, false, false, None, None, [], None,
                        raiseOnErr, version);
      Success(LoadFromConfig(initial, cfg))
  }

  /** Without a known attribute in its configuration, a new algorithm holds
      an empty ledger with the starting balance, the initial market state
      and cleared flags. */
  lemma NewAlgoWithoutConfig<H>(ticker: Option<string>, tickers: seq<string>, balance: Cents,
                                commission: Cents, name: Option<string>, raiseOnErr: bool,
                                version: int, cfg: map<string, Setting>)
    requires forall k :: k in cfg ==> k !in ConfigAttributes
    ensures var r := NewAlgo<H>(ticker, tickers, balance, commission, name, raiseOnErr, version, cfg);
            r.Success? ==>
            && r.value.book == Book(map[], balance, [], [])
            && r.value.startingBalance == balance && r.value.commission == commission
            && r.value.market == InitialMarket
            && r.value.raiseOnErr == raiseOnErr && r.value.version == version
            && !r.value.createdBuy && !r.value.createdSell && !r.value.shouldBuy && !r.value.shouldSell
  {
  }

  /** Replaying the constructor's configuration on the new algorithm
      changes nothing more. */
  lemma NewAlgoReplayStable<H>(ticker: Option<string>, tickers: seq<string>, balance: Cents,
                               commission: Cents, name: Option<string>, raiseOnErr: bool,
                               version: int, cfg: map<string, Setting>)
    ensures var r := NewAlgo<H>(ticker, tickers, balance, commission, name, raiseOnErr, version, cfg);
            r.Success? ==> LoadFromConfig(r.value, cfg) == r.value
  {
  }

  /** Refresh the mirrored position of `ticker` from the ledger. */
  function RefreshCounts<H>(s: Algo<H>, ticker: string): (r: Algo<H>)
    ensures r.numOwned == OwnedOption(s.book.positions, ticker)
    ensures r.numBuys == (if ticker in s.book.positions then Some(s.book.positions[ticker].buys) else None)
    ensures r.numSells == (if ticker in s.book.positions then Some(s.book.positions[ticker].sells) else None)
    ensures r.book == s.book && r.createdBuy == s.createdBuy && r.createdSell == s.createdSell
    ensures r.(numOwned := s.numOwned, numBuys := s.numBuys, numSells := s.numSells) == s
  {
    var p := TickerPosition(s.book.positions, ticker);
    if p.Some? then s.(numOwned := Some(p.value.shares), numBuys := Some(p.value.buys),
                       numSells := Some(p.value.sells))
    else s.(numOwned := None, numBuys := None, numSells := None)
  }

  /** The owned count as the position triple reports it. */
  function OwnedOption(positions: map<string, Position>, ticker: string): Option<int> {
    if ticker in positions then Some(positions[ticker].shares) else None
  }

  /** Configuration attributes a replayed configuration may overwrite. */
  datatype Setting = Number(n: int) | Flag(b: bool)

  const ConfigAttributes: set<string> := {
    "balance", "starting_balance", "commission", "starting_close", "trade_price",
    "raise_on_err", "should_buy", "should_sell", "created_buy", "created_sell", "version"}

  function NumberSetting(cfg: map<string, Setting>, key: string, current: int): (r: int)
    ensures key in cfg && cfg[key].Number? ==> r == cfg[key].n
    ensures !(key in cfg && cfg[key].Number?) ==> r == current
  {
    if key in cfg && cfg[key].Number? then cfg[key].n else current
  }

  function FlagSetting(cfg: map<string, Setting>, key: string, current: bool): (r: bool)
    ensures key in cfg && cfg[key].Flag? ==> r == cfg[key].b
    ensures !(key in cfg && cfg[key].Flag?) ==> r == current
  {
    if key in cfg && cfg[key].Flag? then cfg[key].b else current
  }

  /** Replay a configuration: each known attribute named in `cfg` takes the
      configured value; everything else is left alone. */
  function LoadFromConfig<H>(s: Algo<H>, cfg: map<string, Setting>): (r: Algo<H>)
    ensures (forall k :: k in cfg ==> k !in ConfigAttributes) ==> r == s
    ensures r.book.balance == NumberSetting(cfg, "balance", s.book.balance)
    ensures r.startingBalance == NumberSetting(cfg, "starting_balance", s.startingBalance)
    ensures r.commission == NumberSetting(cfg, "commission", s.commission)
    ensures r.market.startingClose == NumberSetting(cfg, "starting_close", s.market.startingClose)
    ensures r.market.tradePrice == NumberSetting(cfg, "trade_price", s.market.tradePrice)
    ensures r.raiseOnErr == FlagSetting(cfg, "raise_on_err", s.raiseOnErr)
    ensures r.shouldBuy == FlagSetting(cfg, "should_buy", s.shouldBuy)
    ensures r.shouldSell == FlagSetting(cfg, "should_sell", s.shouldSell)
    ensures r.createdBuy == FlagSetting(cfg, "created_buy", s.createdBuy)
    ensures r.createdSell == FlagSetting(cfg, "created_sell", s.createdSell)
    ensures r.version == NumberSetting(cfg, "version", s.version)
    ensures r.market.(startingClose := s.market.startingClose, tradePrice := s.market.tradePrice) == s.market
    ensures r.(book := s.book, startingBalance := s.startingBalance, commission := s.commission,
               market := s.market, raiseOnErr := s.raiseOnErr, shouldBuy := s.shouldBuy,
               shouldSell := s.shouldSell, createdBuy := s.createdBuy,
               createdSell := s.createdSell, version := s.version) == s
    ensures r.book.positions == s.book.positions && r.book.buys == s.book.buys
    ensures r.book.sells == s.book.sells && r.history == s.history && r.tickers == s.tickers
  {
    var m := s.market;
    s.(book := s.book.(balance := NumberSetting(cfg, "balance", s.book.balance)),
       startingBalance := NumberSetting(cfg, "starting_balance", s.startingBalance),
       commission := NumberSetting(cfg, "commission", s.commission),
       market := m.(startingClose := NumberSetting(cfg, "starting_close", m.startingClose),
                    tradePrice := NumberSetting(cfg, "trade_price", m.tradePrice)),
       raiseOnErr := FlagSetting(cfg, "raise_on_err", s.raiseOnErr),
       shouldBuy := FlagSetting(cfg, "should_buy", s.shouldBuy),
       shouldSell := FlagSetting(cfg, "should_sell", s.shouldSell),
       createdBuy := FlagSetting(cfg, "created_buy", s.createdBuy),
       createdSell := FlagSetting(cfg, "created_sell", s.createdSell),
       version := NumberSetting(cfg, "version", s.version))
  }

  /** Replaying the same configuration twice is the same as once. */
  lemma ConfigReplayIdempotent<H>(s: Algo<H>, cfg: map<string, Setting>)
    ensures LoadFromConfig(LoadFromConfig(s, cfg), cfg) == LoadFromConfig(s, cfg)
  {
  }

  /** What the history-entry builder is given, read off the current state.
      The order lists are immutable sequences here, where the algorithm
      passes the position's live lists. */
  function Snapshot<H>(s: Algo<H>): (r: HistoryInput)
    ensures r.balance == s.book.balance && r.close == s.market.tradePrice
    ensures r.algoStartPrice == s.market.startingClose && r.originalBalance == s.startingBalance
    ensures r.numOwned == s.numOwned && r.prevBalance == s.prevBal && r.date == s.tradeDate
    ensures r.buyTriggered == s.shouldBuy && r.sellTriggered == s.shouldSell
  {
    HistoryInput(s.ticker, s.market.startingClose, s.startingBalance, s.numOwned,
                 s.market.tradePrice, s.book.balance, s.commission, s.tradeDate, s.market,
                 s.prevBal, s.prevNumOwned, s.numBuys, s.numSells, s.shouldBuy, s.shouldSell,
                 s.dsId, s.version)
  }

  /** The rest of what the history-entry builder is given: the current
      ticker, commission, market state, previous count, the position's order
      lists, dataset id and version. */
  lemma SnapshotCarriesState<H>(s: Algo<H>)
    ensures var r := Snapshot(s);
            && r.ticker == s.ticker && r.commission == s.commission && r.market == s.market
            && r.prevNumOwned == s.prevNumOwned && r.totalBuys == s.numBuys && r.totalSells == s.numSells
            && r.dsId == s.dsId && r.version == s.version
  {
  }

  /** Append the entry built from the current state, if it is not empty. */
  function Record<H>(s: Algo<H>, rec: Recorder<H>): (r: Algo<H>)
    ensures rec(Snapshot(s)).Some? ==> r.history == s.history + [rec(Snapshot(s)).value]
    ensures rec(Snapshot(s)).None? ==> r.history == s.history
    ensures r.(history := s.history) == s
  {
    var entry := rec(Snapshot(s));
    if entry.Some? then s.(history := s.history + [entry.value]) else s
  }

  datatype AlgoResult<H> = AlgoResult(
    name: Option<string>,
    openPositions: map<string, Position>,
    buys: seq<BuyOrder>,
    sells: seq<SellOrder>,
    numProcessed: nat,
    history: seq<H>,
    balance: Cents,
    commission: Cents)

  /** The report: positions, orders, balance and the processed count, which
      is the length of the history. */
  function GetResult<H>(s: Algo<H>): (r: AlgoResult<H>)
    ensures r.numProcessed == |s.history| && r.history == s.history
    ensures r.balance == s.book.balance && r.commission == s.commission
    ensures r.openPositions == s.book.positions && r.buys == s.book.buys && r.sells == s.book.sells
  {
    AlgoResult(s.name, s.book.positions, s.book.buys, s.book.sells, |s.history|,
               s.history, s.book.balance, s.commission)
  }

  /** Clear the history and the loaded dataset for another run; the ledger
      and market state carry over. */
  function ResetForNextRun<H>(s: Algo<H>): (r: Algo<H>)
    ensures r.history == [] && r.loadedDataset.None?
    ensures r.(history := s.history, loadedDataset := s.loadedDataset) == s
  {
    s.(history := [], loadedDataset := None)
  }

  lemma ResetReportsNothingProcessed<H>(s: Algo<H>)
    ensures GetResult(ResetForNextRun(s)).numProcessed == 0
    ensures GetResult(ResetForNextRun(s)).balance == s.book.balance
  {
  }
}

=== FILE: dataset.dfy ===
/** Dataset nodes as handed to the algorithm by the data pipeline: one dated
    bundle of named sub-tables per ticker and day. A table is a set of column
    names and an ordered sequence of rows, each row mapping column names to
    cell values. */
module Dataset {
  import opened Results

  /** Money and prices, in integer cents. */
  type Cents = int

  /** A table cell. `Num` is a number (a price in cents, or a count for the
      `volume` column); `Text` a string that does not parse as a number;
      `Null` a missing cell; `Label` the algorithm-id label built by the
      driver (ticker plus progress counter). */
  datatype Value =
    | Num(n: int)
    | Text(s: string)
    | Null
    | Label(ticker: string, progress: int, total: int)

  type Row = map<string, Value>

  datatype Table = Table(columns: set<string>, rows: seq<Row>)

  /** A sub-table slot of a node: a table, or a value without an `index`
      attribute (a dict, a number, `None`). Values that have an `index`
      method but are not tables, such as strings and lists, are not
      represented. */
  datatype Frame = Tabular(table: Table) | Untabular

  /** One dataset node; an absent `id`, `date` or `data` key is `None`. */
  datatype DatasetNode = DatasetNode(
    id: Option<string>,
    date: Option<string>,
    data: Option<map<string, Frame>>)

  /** The multi-ticker input: ticker to its ordered list of nodes. */
  type Data = map<string, seq<DatasetNode>>

  /** The algorithm's "empty" table: one row and no columns. */
  const EmptyTable: Table := Table({}, [map[]])

  /** The keys of a node's `data` dictionary the algorithm loads. */
  const FrameKeys: seq<string> := [
    "daily", "minute", "stats", "peers", "financials", "earnings",
    "dividends", "quote", "company", "news1", "news", "calls", "puts",
    "pricing"]

  /** The sub-table under `key`: missing keys and values without a row index
      both become the empty table. */
  function TableAt(data: map<string, Frame>, key: string): (t: Table)
    ensures key in data && data[key].Tabular? ==> t == data[key].table
    ensures !(key in data && data[key].Tabular?) ==> t == EmptyTable
  {
    if key in data && data[key].Tabular? then data[key].table else EmptyTable
  }

  /** The cell of `column` in the last row; `None` when the table has no
      rows (an index error), `Null` when the last row lacks the cell. */
  function LastValue(t: Table, column: string): (r: Option<Value>)
    ensures r.None? <==> |t.rows| == 0
    ensures |t.rows| > 0 && column in t.rows[|t.rows| - 1] ==> r == Some(t.rows[|t.rows| - 1][column])
    ensures |t.rows| > 0 && column !in t.rows[|t.rows| - 1] ==> r == Some(Null)
  {
    if |t.rows| == 0 then None
    else
      var last := t.rows[|t.rows| - 1];
      if column in last then Some(last[column]) else Some(Null)
  }
}

=== FILE: driver.dfy ===
/** The backtest driver: committing buy and sell orders, loading a dataset
    node into the market state, the default decision step, and the fold of
    `handle_data` over tickers and their nodes. Every step is a pure function
    from the algorithm state to the next state, or to the exception that
    escapes it. */
module Driver {
  import opened Results
  import opened Dataset
  import opened Orders
  import opened Ledger
  import opened Market
  import opened Algo

  /** The buy order the algorithm builds for `row` (numeric close assumed). */
  function PlannedBuy<H>(s: Algo<H>, ticker: string, row: Row, shares: Option<int>,
                         reason: Option<string>): BuyOrder
    requires "close" in row && "date" in row && row["close"].Num?
  {
    BuildBuyOrder(ticker, OwnedShares(s.book.positions, ticker), row["close"].n,
                  s.book.balance, s.commission, row["date"], row, shares, 1, true, reason)
  }

  /** Place a buy at the row's close. A missing `close` or `date` escapes;
      a close the builder cannot compare makes it raise, which escapes only
      in strict mode. Any built order is recorded; only a fill moves money
      and shares. */
  function CreateBuyOrder<H>(s: Algo<H>, ticker: string, row: Row, shares: Option<int>,
                             reason: Option<string>): (r: Result<Algo<H>, AlgoError>)
    ensures "close" !in row ==> r == Failure(MissingKey("close"))
    ensures "close" in row && "date" !in row ==> r == Failure(MissingKey("date"))
    ensures "close" in row && "date" in row && !row["close"].Num? ==>
      r == (if s.raiseOnErr then Failure(BuyFailed) else Success(RefreshCounts(s, ticker)))
    ensures "close" in row && "date" in row && row["close"].Num? ==>
      var o := PlannedBuy(s, ticker, row, shares, reason);
      && r.Success?
      && WellFormedBuy(o)
      && r.value.book == CommitBuy(s.book, ticker, o)
      && (r.value.createdBuy <==> s.createdBuy || (o.status == Filled && ticker in s.book.positions))
    ensures r.Success? ==> r.value.numOwned == OwnedOption(r.value.book.positions, ticker)
    ensures r.Success? ==>
      r.value == RefreshCounts(s.(book := r.value.book, createdBuy := r.value.createdBuy), ticker)
  {
    if "close" !in row then Failure(MissingKey("close"))
    else if "date" !in row then Failure(MissingKey("date"))
    else if !row["close"].Num? then
      if s.raiseOnErr then Failure(BuyFailed) else Success(RefreshCounts(s, ticker))
    else
      var o := PlannedBuy(s, ticker, row, shares, reason);
      BuiltOrdersAreWellFormed(ticker, OwnedShares(s.book.positions, ticker), row["close"].n,
                               s.book.balance, s.commission, row["date"], row, shares, 1, true, reason);
      var hit := o.status == Filled && ticker in s.book.positions;
      Success(RefreshCounts(s.(book := CommitBuy(s.book, ticker, o),
                               createdBuy := s.createdBuy || hit), ticker))
  }

  /** The request the algorithm hands its sell-order builder for `row`. */
  function SellRequestFor<H>(s: Algo<H>, ticker: string, row: Row, shares: Option<int>,
                             reason: Option<string>): SellRequest
    requires "close" in row && "date" in row
  {
    SellRequest(ticker, row["close"], OwnedShares(s.book.positions, ticker), shares,
                s.book.balance, s.commission, row["date"], row, reason)
  }

  /** Place a sell at the row's close through the sell-order builder; the
      mirror of `CreateBuyOrder`. */
  function CreateSellOrder<H>(s: Algo<H>, ticker: string, row: Row, shares: Option<int>,
                              reason: Option<string>, sell: SellBuilder): (r: Result<Algo<H>, AlgoError>)
    ensures "close" !in row ==> r == Failure(MissingKey("close"))
    ensures "close" in row && "date" !in row ==> r == Failure(MissingKey("date"))
    ensures "close" in row && "date" in row && sell(SellRequestFor(s, ticker, row, shares, reason)).None? ==>
      r == (if s.raiseOnErr then Failure(SellFailed) else Success(RefreshCounts(s, ticker)))
    ensures "close" in row && "date" in row && sell(SellRequestFor(s, ticker, row, shares, reason)).Some? ==>
      var o := sell(SellRequestFor(s, ticker, row, shares, reason)).value;
      && r.Success?
      && r.value.book == CommitSell(s.book, ticker, o)
      && (r.value.createdSell <==> s.createdSell || (o.status == Filled && ticker in s.book.positions))
    ensures r.Success? ==> r.value.numOwned == OwnedOption(r.value.book.positions, ticker)
    ensures r.Success? ==>
      r.value == RefreshCounts(s.(book := r.value.book, createdSell := r.value.createdSell), ticker)
  {
    if "close" !in row then Failure(MissingKey("close"))
    else if "date" !in row then Failure(MissingKey("date"))
    else match sell(SellRequestFor(s, ticker, row, shares, reason))
      case None =>
        if s.raiseOnErr then Failure(SellFailed) else Success(RefreshCounts(s, ticker))
      case Some(o) =>
        var hit := o.status == Filled && ticker in s.book.positions;
        Success(RefreshCounts(s.(book := CommitSell(s.book, ticker, o),
                                 createdSell := s.createdSell || hit), ticker))
  }

  /** The tables of a node's data, keyed like the data dictionary. */
  function LoadFrames(data: map<string, Frame>): (r: map<string, Table>)
    ensures forall k :: k in r <==> k in FrameKeys
    ensures forall k :: k in r ==> r[k] == TableAt(data, k)
  {
    map k | k in FrameKeys :: TableAt(data, k)
  }

  /** Load one dataset node. The date always becomes the backtest and trade
      date and the per-step flags are cleared; the market state is then
      refreshed from the daily and minute tables. A node without data, or a
      minute `date` column without rows, escapes; a refresh failure escapes
      only in strict mode and otherwise keeps the partial refresh. */
  function LoadFromDataset<H>(s: Algo<H>, node: DatasetNode): (r: Result<Algo<H>, AlgoError>)
    ensures node.data.None? ==> r == Failure(MissingData)
    ensures r.Failure? <==>
      || node.data.None?
      || (var minute := TableAt(node.data.value, "minute");
          "date" in minute.columns && |minute.rows| == 0)
      || (s.raiseOnErr && RefreshPrices(s.market, TableAt(node.data.value, "daily"),
                                        TableAt(node.data.value, "minute")).failed)
    ensures r.Success? ==>
      var date := node.date.GetOr("missing-DATE");
      && r.value.backtestDate == Some(date)
      && r.value.tradeDate == Some(date)
      && r.value.dsDate == Some(date)
      && r.value.dsId == Some(node.id.GetOr("missing-ID"))
      && r.value.lastDsId == s.dsId && r.value.lastDsDate == s.dsDate
      && !r.value.createdBuy && !r.value.createdSell
      && !r.value.shouldBuy && !r.value.shouldSell
      && r.value.frames == LoadFrames(node.data.value)
      && r.value.market == RefreshPrices(s.market, TableAt(node.data.value, "daily"),
                                         TableAt(node.data.value, "minute")).market
    ensures r.Success? ==>
      r.value.book == s.book && r.value.numOwned == s.numOwned && r.value.history == s.history
      && r.value.prevBal == s.prevBal && r.value.ticker == s.ticker && r.value.raiseOnErr == s.raiseOnErr
  {
    if node.data.None? then Failure(MissingData)
    else
      var data := node.data.value;
      var daily := TableAt(data, "daily");
      var minute := TableAt(data, "minute");
      if "date" in minute.columns && |minute.rows| == 0 then Failure(NoMinuteRows)
      else
        var latestMin := if "date" in minute.columns then LastValue(minute, "date") else None;
        var refresh := RefreshPrices(s.market, daily, minute);
        if refresh.failed && s.raiseOnErr then Failure(PricesFailed)
        else
          var date := node.date.GetOr("missing-DATE");
          Success(s.(lastDsId := s.dsId, lastDsDate := s.dsDate,
                     dsId := Some(node.id.GetOr("missing-ID")), dsDate := Some(date),
                     frames := LoadFrames(data), latestMin := latestMin,
                     backtestDate := Some(date), tradeDate := Some(date),
                     createdBuy := false, createdSell := false,
                     shouldBuy := false, shouldSell := false,
                     market := refresh.market))
  }

  /** A load writes only the dataset ids and dates, the tables, the latest
      minute, the backtest and trade dates, the per-step flags and the market
      state: every other field, the mirrored counts and order lists
      included, is kept. */
  lemma LoadFromDatasetFrame<H>(s: Algo<H>, node: DatasetNode)
    ensures var r := LoadFromDataset(s, node);
            r.Success? ==>
            r.value.(lastDsId := s.lastDsId, lastDsDate := s.lastDsDate, dsId := s.dsId,
                     dsDate := s.dsDate, frames := s.frames, latestMin := s.latestMin,
                     backtestDate := s.backtestDate, tradeDate := s.tradeDate,
                     createdBuy := s.createdBuy, createdSell := s.createdSell,
                     shouldBuy := s.shouldBuy, shouldSell := s.shouldSell, market := s.market) == s
  {
  }

  /** The row the default decision step trades at: close 270.00 on 2018-11-02. */
  function DecisionRow(algoId: Value): Row {
    map["name" := algoId, "close" := Num(27000), "date" := Text("2018-11-02")]
  }

  const DecisionReason: Option<string> := Some("testing")

  /** Act on the trade signals: sell if signalled and holding, buy if
      signalled, then sell whatever is still held unless a sell already hit
      an existing position this step. */
  function ExecuteSignals<H>(s: Algo<H>, algoId: Value, ticker: string,
                             sell: SellBuilder): (r: Result<Algo<H>, AlgoError>)
    ensures !s.shouldSell && !s.shouldBuy ==>
      r == (if Holds(s.numOwned) && !s.createdSell
            then CreateSellOrder(s, ticker, DecisionRow(algoId), None, DecisionReason, sell)
            else Success(s))
    ensures !Holds(s.numOwned) && !s.shouldBuy ==> r == Success(s)
    ensures r.Success? ==>
      && r.value.history == s.history && r.value.prevBal == s.prevBal
      && r.value.ticker == s.ticker && r.value.backtestDate == s.backtestDate
      && r.value.tradeDate == s.tradeDate && r.value.market == s.market
      && r.value.shouldBuy == s.shouldBuy && r.value.shouldSell == s.shouldSell
  {
    var row := DecisionRow(algoId);
    var s1 :- if Holds(s.numOwned) && s.shouldSell
              then CreateSellOrder(s, ticker, row, None, DecisionReason, sell) else Success(s);
    var s2 :- if s1.shouldBuy then CreateBuyOrder(s1, ticker, row, None, DecisionReason)
              else Success(s1);
    if Holds(s2.numOwned) && !s2.createdSell
    then CreateSellOrder(s2, ticker, row, None, DecisionReason, sell) else Success(s2)
  }

  /** The default decision step: both signals are switched off, so the only
      trade it can make is the closing sell of a held position. */
  function Process<H>(s: Algo<H>, algoId: Value, ticker: string,
                      sell: SellBuilder): (r: Result<Algo<H>, AlgoError>)
    ensures var c := s.(shouldSell := false, shouldBuy := false);
      r == (if Holds(s.numOwned) && !s.createdSell
            then CreateSellOrder(c, ticker, DecisionRow(algoId), None, DecisionReason, sell)
            else Success(c))
    ensures r.Success? ==> !r.value.shouldBuy && !r.value.shouldSell
    ensures r.Success? ==> r.value.history == s.history && r.value.prevBal == s.prevBal
                           && r.value.ticker == s.ticker && r.value.backtestDate == s.backtestDate
                           && r.value.tradeDate == s.tradeDate && r.value.book.buys == s.book.buys
  {
    ExecuteSignals(s.(shouldSell := false, shouldBuy := false), algoId, ticker, sell)
  }

  /** One node of one ticker: remember the balance and count at step start,
      mirror the ledger, load the node, decide, and record a history entry. */
  function Step<H>(s: Algo<H>, ticker: string, node: DatasetNode, progress: int, total: int,
                   sell: SellBuilder, rec: Recorder<H>): (r: Result<Algo<H>, AlgoError>)
    ensures node.id.None? ==> r == Failure(MissingKey("id"))
    ensures node.id.Some? && node.date.None? ==> r == Failure(MissingKey("date"))
    ensures r.Success? ==>
      && r.value.prevBal == Some(s.book.balance)
      && r.value.ticker == Some(ticker)
      && r.value.backtestDate == node.date
      && r.value.tradeDate == node.date
      && !r.value.shouldBuy && !r.value.shouldSell
      && s.history <= r.value.history
      && |s.history| <= |r.value.history| <= |s.history| + 1
    ensures r.Success? && (forall x :: rec(x).Some?) ==> |r.value.history| == |s.history| + 1
  {
    if node.id.None? then Failure(MissingKey("id"))
    else if node.date.None? then Failure(MissingKey("date"))
    else
      var s1 := RefreshCounts(s.(ticker := Some(ticker), prevBal := Some(s.book.balance),
                                 prevNumOwned := s.numOwned), ticker);
      var s2 :- LoadFromDataset(s1, node);
      var s3 :- Process(s2, Label(ticker, progress, total), ticker, sell);
      Success(Record(s3, rec))
  }

  /** A node that carries both an id and a date, as the driver requires. */
  predicate Identified(n: DatasetNode) {
    n.id.Some? && n.date.Some?
  }

  /** The nodes of one ticker, in list order; `progress` counts from 1. A
      run keeps the earlier history. */
  function RunNodes<H>(s: Algo<H>, ticker: string, nodes: seq<DatasetNode>, progress: int,
                       total: int, sell: SellBuilder, rec: Recorder<H>): (r: Result<Algo<H>, AlgoError>)
    ensures |nodes| == 0 ==> r == Success(s)
    ensures r.Success? ==> s.history <= r.value.history
    decreases |nodes|
  {
    if |nodes| == 0 then Success(s)
    else
      var s1 :- Step(s, ticker, nodes[0], progress, total, sell, rec);
      RunNodes(s1, ticker, nodes[1..], progress + 1, total, sell, rec)
  }

  /** Every ticker's nodes in turn, in ticker order. */
  function RunTickers<H>(s: Algo<H>, tickers: seq<string>, data: Data, sell: SellBuilder,
                         rec: Recorder<H>): (r: Result<Algo<H>, AlgoError>)
    requires forall i :: 0 <= i < |tickers| ==> tickers[i] in data
    ensures |tickers| == 0 ==> r == Success(s)
    ensures r.Success? ==> s.history <= r.value.history
    decreases |tickers|
  {
    if |tickers| == 0 then Success(s)
    else
      var nodes := data[tickers[0]];
      var s1 :- RunNodes(s, tickers[0], nodes, 1, |nodes|, sell, rec);
      RunTickers(s1, tickers[1..], data, sell, rec)
  }

  /** The algorithm's tickers that have data, in the algorithm's order. */
  function SupportedTickers(tickers: seq<string>, data: Data): (r: seq<string>)
    ensures forall t :: t in r <==> t in tickers && t in data
    ensures |r| <= |tickers|
  {
    if |tickers| == 0 then []
    else (if tickers[0] in data then [tickers[0]] else []) + SupportedTickers(tickers[1..], data)
  }

  /** The data a run uses: a previously loaded non-empty dataset wins. */
  function RunData<H>(s: Algo<H>, data: Data): (r: Data)
    ensures s.loadedDataset.Some? && |s.loadedDataset.value| > 0 ==> r == s.loadedDataset.value
    ensures s.loadedDataset.None? || |s.loadedDataset.value| == 0 ==> r == data
  {
    if s.loadedDataset.Some? && |s.loadedDataset.value| > 0 then s.loadedDataset.value else data
  }

  /** Process new data: every supported ticker's nodes in order. Without a
      supported ticker nothing happens; a successful run only appends to the
      history. */
  function HandleData<H>(s: Algo<H>, data: Data, sell: SellBuilder,
                         rec: Recorder<H>): (r: Result<Algo<H>, AlgoError>)
    ensures |SupportedTickers(s.tickers, RunData(s, data))| == 0 ==> r == Success(s)
    ensures r.Success? ==> s.history <= r.value.history
  {
    var d := RunData(s, data);
    var ts := SupportedTickers(s.tickers, d);
    assert forall i :: 0 <= i < |ts| ==> ts[i] in d by {
      forall i | 0 <= i < |ts| ensures ts[i] in d {
        assert ts[i] in ts;
      }
    }
    RunTickers(s, ts, d, sell, rec)
  }
}

=== FILE: driver_props.dfy ===
/** Properties of the driver that relate several of its steps: the order in
    which tickers are visited, how the history grows over a run, the closing
    sell of the default decision step, and how the ledger's count behaves
    over repeated buys. */
module DriverProps {
  import opened Results
  import opened Dataset
  import opened Orders
  import opened Ledger
  import opened Market
  import opened Algo
  import opened Driver

  /** Filtering tickers distributes over concatenation: the supported
      tickers keep the algorithm's relative order. */
  lemma {:induction false} SupportedTickersDistribute(a: seq<string>, b: seq<string>, data: Data)
    ensures SupportedTickers(a + b, data) == SupportedTickers(a, data) + SupportedTickers(b, data)
    decreases |a|
  {
    if |a| == 0 {
      assert a + b == b;
    } else {
      assert (a + b)[0] == a[0];
      assert (a + b)[1..] == a[1..] + b;
      SupportedTickersDistribute(a[1..], b, data);
    }
  }

  /** When every ticker has data, all of them are visited, in order. */
  lemma {:induction false} SupportedTickersAllPresent(tickers: seq<string>, data: Data)
    requires forall i :: 0 <= i < |tickers| ==> tickers[i] in data
    ensures SupportedTickers(tickers, data) == tickers
    decreases |tickers|
  {
    if |tickers| > 0 {
      SupportedTickersAllPresent(tickers[1..], data);
    }
  }

  /** Number of nodes over the given tickers. */
  function NodeCount(tickers: seq<string>, data: Data): nat
    requires forall i :: 0 <= i < |tickers| ==> tickers[i] in data
    decreases |tickers|
  {
    if |tickers| == 0 then 0 else |data[tickers[0]]| + NodeCount(tickers[1..], data)
  }

  /** The history only grows, by at most one entry per node, and by exactly
      one per node when the history builder never returns an empty entry. */
  lemma {:induction false} RunNodesHistory<H>(s: Algo<H>, ticker: string, nodes: seq<DatasetNode>,
                                              progress: int, total: int, sell: SellBuilder,
                                              rec: Recorder<H>)
    ensures var r := RunNodes(s, ticker, nodes, progress, total, sell, rec);
            r.Success? ==> s.history <= r.value.history && |r.value.history| <= |s.history| + |nodes|
    ensures var r := RunNodes(s, ticker, nodes, progress, total, sell, rec);
            r.Success? && (forall x :: rec(x).Some?) ==> |r.value.history| == |s.history| + |nodes|
    decreases |nodes|
  {
    if |nodes| > 0 {
      var r1 := Step(s, ticker, nodes[0], progress, total, sell, rec);
      if r1.Success? {
        RunNodesHistory(r1.value, ticker, nodes[1..], progress + 1, total, sell, rec);
      }
    }
  }

  lemma {:induction false} RunTickersHistory<H>(s: Algo<H>, tickers: seq<string>, data: Data,
                                                sell: SellBuilder, rec: Recorder<H>)
    requires forall i :: 0 <= i < |tickers| ==> tickers[i] in data
    ensures var r := RunTickers(s, tickers, data, sell, rec);
            r.Success? ==>
            s.history <= r.value.history && |r.value.history| <= |s.history| + NodeCount(tickers, data)
    ensures var r := RunTickers(s, tickers, data, sell, rec);
            r.Success? && (forall x :: rec(x).Some?) ==>
            |r.value.history| == |s.history| + NodeCount(tickers, data)
    decreases |tickers|
  {
    if |tickers| > 0 {
      var nodes := data[tickers[0]];
      RunNodesHistory(s, tickers[0], nodes, 1, |nodes|, sell, rec);
      var r1 := RunNodes(s, tickers[0], nodes, 1, |nodes|, sell, rec);
      if r1.Success? {
        RunTickersHistory(r1.value, tickers[1..], data, sell, rec);
      }
    }
  }

  /** After a successful run the report counts one processed entry per node
      of every supported ticker, on top of the entries already recorded. */
  lemma HandleDataCountsNodes<H>(s: Algo<H>, data: Data, sell: SellBuilder, rec: Recorder<H>)
    requires forall x :: rec(x).Some?
    ensures var d := RunData(s, data);
            var ts := SupportedTickers(s.tickers, d);
            var r := HandleData(s, data, sell, rec);
            && (forall i :: 0 <= i < |ts| ==> ts[i] in d)
            && (r.Success? ==> GetResult(r.value).numProcessed == |s.history| + NodeCount(ts, d))
  {
    var d := RunData(s, data);
    var ts := SupportedTickers(s.tickers, d);
    assert forall i :: 0 <= i < |ts| ==> ts[i] in d by {
      forall i | 0 <= i < |ts| ensures ts[i] in d {
        assert ts[i] in ts;
      }
    }
    RunTickersHistory(s, ts, d, sell, rec);
  }

  /** A run over a ticker's nodes gets through only if every node has an id
      and a date: the first node without one raises. */
  lemma {:induction false} RunNodesIdentified<H>(s: Algo<H>, ticker: string, nodes: seq<DatasetNode>,
                                                 progress: int, total: int, sell: SellBuilder,
                                                 rec: Recorder<H>)
    ensures RunNodes(s, ticker, nodes, progress, total, sell, rec).Success? ==>
            forall n :: n in nodes ==> Identified(n)
    decreases |nodes|
  {
    if |nodes| > 0 {
      var r1 := Step(s, ticker, nodes[0], progress, total, sell, rec);
      if r1.Success? {
        RunNodesIdentified(r1.value, ticker, nodes[1..], progress + 1, total, sell, rec);
        assert nodes == [nodes[0]] + nodes[1..];
      }
    }
  }

  /** The same over every visited ticker's nodes. */
  lemma {:induction false} RunTickersIdentified<H>(s: Algo<H>, tickers: seq<string>, data: Data,
                                                   sell: SellBuilder, rec: Recorder<H>)
    requires forall i :: 0 <= i < |tickers| ==> tickers[i] in data
    ensures RunTickers(s, tickers, data, sell, rec).Success? ==>
            forall t, n :: t in tickers && n in data[t] ==> Identified(n)
    decreases |tickers|
  {
    if |tickers| > 0 {
      var nodes := data[tickers[0]];
      RunNodesIdentified(s, tickers[0], nodes, 1, |nodes|, sell, rec);
      var r1 := RunNodes(s, tickers[0], nodes, 1, |nodes|, sell, rec);
      if r1.Success? {
        RunTickersIdentified(r1.value, tickers[1..], data, sell, rec);
        assert forall t :: t in tickers ==> t == tickers[0] || t in tickers[1..];
      }
    }
  }

  /** A successful `handle_data` visited only nodes with an id and a date:
      every node of every supported ticker of the data it used. */
  lemma HandleDataIdentified<H>(s: Algo<H>, data: Data, sell: SellBuilder, rec: Recorder<H>)
    ensures var d := RunData(s, data);
            HandleData(s, data, sell, rec).Success? ==>
            forall t, n :: t in s.tickers && t in d && n in d[t] ==> Identified(n)
  {
    var d := RunData(s, data);
    var ts := SupportedTickers(s.tickers, d);
    assert forall i :: 0 <= i < |ts| ==> ts[i] in d by {
      forall i | 0 <= i < |ts| ensures ts[i] in d {
        assert ts[i] in ts;
      }
    }
    RunTickersIdentified(s, ts, d, sell, rec);
  }

  /** A successful run over a ticker's nodes ends on that ticker, with the
      last node's date as the trade date. */
  lemma {:induction false} RunNodesEndsOnLastNode<H>(s: Algo<H>, ticker: string, nodes: seq<DatasetNode>,
                                                     progress: int, total: int, sell: SellBuilder,
                                                     rec: Recorder<H>)
    requires |nodes| > 0
    ensures var r := RunNodes(s, ticker, nodes, progress, total, sell, rec);
            r.Success? ==> r.value.ticker == Some(ticker) && r.value.tradeDate == nodes[|nodes| - 1].date
    decreases |nodes|
  {
    var r1 := Step(s, ticker, nodes[0], progress, total, sell, rec);
    if r1.Success? && |nodes| > 1 {
      RunNodesEndsOnLastNode(r1.value, ticker, nodes[1..], progress + 1, total, sell, rec);
    }
  }

  /** In every step of a ticker whose ledger count is non-zero, the default
      decision step attempts a closing sell (and records it when the sell
      builder returns an order). */
  lemma StepSellsHeldPosition<H>(s: Algo<H>, ticker: string, node: DatasetNode, progress: int,
                                 total: int, sell: SellBuilder, rec: Recorder<H>)
    requires ticker in s.book.positions && s.book.positions[ticker].shares != 0
    requires forall q :: sell(q).Some?
    ensures var r := Step(s, ticker, node, progress, total, sell, rec);
            r.Success? ==> |r.value.book.sells| == |s.book.sells| + 1 && r.value.book.buys == s.book.buys
  {
    if node.id.Some? && node.date.Some? {
      var s1 := RefreshCounts(s.(ticker := Some(ticker), prevBal := Some(s.book.balance),
                                 prevNumOwned := s.numOwned), ticker);
      var l := LoadFromDataset(s1, node);
      if l.Success? {
        var c := l.value.(shouldSell := false, shouldBuy := false);
        assert c.book == s.book && Holds(c.numOwned) && !c.createdSell;
        var req := SellRequestFor(c, ticker, DecisionRow(Label(ticker, progress, total)), None, DecisionReason);
        assert CommitSell(c.book, ticker, sell(req).value).sells == s.book.sells + [sell(req).value];
      }
    }
  }

  /** The closing sell of a held position, filled for a non-negative count,
      leaves the ledger count at least where it was. */
  lemma StepClosingSellNeverLowersCount<H>(s: Algo<H>, ticker: string, node: DatasetNode,
                                           progress: int, total: int, sell: SellBuilder,
                                           rec: Recorder<H>)
    requires ticker in s.book.positions && s.book.positions[ticker].shares != 0
    requires forall q :: sell(q).Some? && sell(q).value.status == Filled && sell(q).value.shares >= 0
    ensures var r := Step(s, ticker, node, progress, total, sell, rec);
            r.Success? ==>
            && ticker in r.value.book.positions
            && r.value.book.positions[ticker].shares >= s.book.positions[ticker].shares
  {
    if node.id.Some? && node.date.Some? {
      var s1 := RefreshCounts(s.(ticker := Some(ticker), prevBal := Some(s.book.balance),
                                 prevNumOwned := s.numOwned), ticker);
      var l := LoadFromDataset(s1, node);
      if l.Success? {
        var c := l.value.(shouldSell := false, shouldBuy := false);
        assert c.book == s.book && Holds(c.numOwned) && !c.createdSell;
        var req := SellRequestFor(c, ticker, DecisionRow(Label(ticker, progress, total)), None, DecisionReason);
        FilledSellNeverLowersCount(c.book, ticker, sell(req).value);
      }
    }
  }

  /** In a step of a ticker the ledger holds nothing of, the default decision
      step trades nothing. */
  lemma StepWithoutHoldingTradesNothing<H>(s: Algo<H>, ticker: string, node: DatasetNode,
                                           progress: int, total: int, sell: SellBuilder,
                                           rec: Recorder<H>)
    requires ticker !in s.book.positions || s.book.positions[ticker].shares == 0
    ensures var r := Step(s, ticker, node, progress, total, sell, rec);
            r.Success? ==> r.value.book == s.book
  {
  }

  /** A node whose daily table has no columns (missing, not a table, or
      empty) leaves every `today*` field as it was. */
  lemma LoadWithoutDailyKeepsToday<H>(s: Algo<H>, node: DatasetNode)
    requires node.data.Some? && TableAt(node.data.value, "daily").columns == {}
    ensures var r := LoadFromDataset(s, node);
            r.Success? ==> forall f: Field :: Get(r.value.market, Daily, f) == Get(s.market, Daily, f)
  {
    var daily := TableAt(node.data.value, "daily");
    var minute := TableAt(node.data.value, "minute");
    forall f: Field
      ensures Get(RefreshPrices(s.market, daily, minute).market, Daily, f) == Get(s.market, Daily, f)
    {
      AbsentColumnKept(s.market, RefreshOrder, daily, minute, Daily, f);
    }
  }

  /** A node with an empty data dictionary still advances the dates and
      clears the signals, and changes no market-state field. */
  lemma LoadEmptyNode<H>(s: Algo<H>, id: string, date: string)
    ensures var r := LoadFromDataset(s, DatasetNode(Some(id), Some(date), Some(map[])));
            && r.Success?
            && r.value.backtestDate == Some(date)
            && r.value.tradeDate == Some(date)
            && r.value.market == s.market
            && !r.value.shouldBuy && !r.value.shouldSell
  {
    var data: map<string, Frame> := map[];
    assert TableAt(data, "daily") == EmptyTable && TableAt(data, "minute") == EmptyTable;
    NoColumnsNoChange(s.market, RefreshOrder, EmptyTable, EmptyTable);
    assert RefreshPrices(s.market, EmptyTable, EmptyTable) == Refresh(s.market, false);
  }

  /** A ticker's first filled buy leaves a position whose count is the
      number of shares bought. */
  lemma FirstBuyReconciles<H>(s: Algo<H>, ticker: string, row: Row, shares: Option<int>,
                              reason: Option<string>)
    requires "close" in row && "date" in row && row["close"].Num?
    requires ticker !in s.book.positions
    requires PlannedBuy(s, ticker, row, shares, reason).status == Filled
    ensures var r := CreateBuyOrder(s, ticker, row, shares, reason);
            r.Success? && Reconciles(r.value.book.positions[ticker])
  {
    var o := PlannedBuy(s, ticker, row, shares, reason);
    BuiltOrdersAreWellFormed(ticker, OwnedShares(s.book.positions, ticker), row["close"].n,
                             s.book.balance, s.commission, row["date"], row, shares, 1, true, reason);
    FirstFilledBuyReconciles(s.book, ticker, o);
  }

  /** A second filled buy on a reconciling position overstates the count by
      the shares held before it. */
  lemma RepeatBuyOverstates<H>(s: Algo<H>, ticker: string, row: Row, shares: Option<int>,
                               reason: Option<string>)
    requires "close" in row && "date" in row && row["close"].Num?
    requires ticker in s.book.positions && Reconciles(s.book.positions[ticker])
    requires PlannedBuy(s, ticker, row, shares, reason).status == Filled
    ensures var r := CreateBuyOrder(s, ticker, row, shares, reason);
            && r.Success?
            && r.value.createdBuy
            && (var p := r.value.book.positions[ticker];
                p.shares == NetAcquired(p.buys) + s.book.positions[ticker].shares)
  {
    var o := PlannedBuy(s, ticker, row, shares, reason);
    BuiltOrdersAreWellFormed(ticker, OwnedShares(s.book.positions, ticker), row["close"].n,
                             s.book.balance, s.commission, row["date"], row, shares, 1, true, reason);
    RepeatFilledBuyOvercounts(s.book, ticker, o);
  }

  /** Two one-share buys at 270.00 from 1000.00 with a 6.00 commission: the
      ledger stores 3 shares for the 2 bought. */
  lemma TwoBuysStoreThreeShares<H>(s: Algo<H>)
    requires s.book.positions == map[] && s.book.balance == 100000 && s.commission == 600
    ensures var row := DecisionRow(Text("demo"));
            var r1 := CreateBuyOrder(s, "SPY", row, Some(1), None);
            && r1.Success?
            && (var r2 := CreateBuyOrder(r1.value, "SPY", row, Some(1), None);
                && r2.Success?
                && r2.value.book.balance == 44800
                && r2.value.book.positions["SPY"].shares == 3
                && NetAcquired(r2.value.book.positions["SPY"].buys) == 2)
  {
    var row := DecisionRow(Text("demo"));
    var o1 := PlannedBuy(s, "SPY", row, Some(1), None);
    assert o1.status == Filled && o1.shares == Some(1) && o1.balance == 72400;
    var r1 := CreateBuyOrder(s, "SPY", row, Some(1), None).value;
    assert r1.book == CommitBuy(s.book, "SPY", o1);
    assert r1.market == s.market && r1.commission == s.commission;
    assert r1.book.positions["SPY"] == Position(1, [o1], []);
    NetAcquiredAppend([], o1);
    assert [] + [o1] == [o1];
    assert Reconciles(r1.book.positions["SPY"]);
    var o2 := PlannedBuy(r1, "SPY", row, Some(1), None);
    assert o2.status == Filled && o2.shares == Some(2) && o2.balance == 44800;
    RepeatBuyOverstates(r1, "SPY", row, Some(1), None);
  }
}

=== FILE: ledger.dfy ===
/** The algorithm's ledger: per-ticker positions, the running balance and the
    global lists of every buy and sell order attempted. Orders are committed
    exactly as the algorithm commits them, including its treatment of the
    order's `shares` field on an existing position. */
module Ledger {
  import opened Results
  import opened Dataset
  import opened Orders

  datatype Position = Position(shares: int, buys: seq<BuyOrder>, sells: seq<SellOrder>)

  datatype Book = Book(
    positions: map<string, Position>,
    balance: Cents,
    buys: seq<BuyOrder>,
    sells: seq<SellOrder>)

  /** The position of `ticker`; `None` stands for the source's
      `(None, None, None)` triple of a ticker never filled. */
  function TickerPosition(positions: map<string, Position>, ticker: string): (r: Option<Position>)
    ensures r.None? <==> ticker !in positions
    ensures r.Some? ==> r.value == positions[ticker]
  {
    if ticker in positions then Some(positions[ticker]) else None
  }

  /** Shares held for `ticker`, zero for a ticker never filled. */
  function OwnedShares(positions: map<string, Position>, ticker: string): (r: int)
    ensures ticker !in positions ==> r == 0
    ensures ticker in positions ==> r == positions[ticker].shares
  {
    if ticker in positions then positions[ticker].shares else 0
  }

  /** The two lookups agree: the owned count is the position's count, and
      zero when there is no position. */
  lemma LookupsAgree(positions: map<string, Position>, ticker: string)
    ensures OwnedShares(positions, ticker) ==
            TickerPosition(positions, ticker).GetOr(Position(0, [], [])).shares
  {
  }

  /** Commit a buy order. A fill on a new ticker opens a position holding the
      order's `shares`; a fill on an existing position adds the order's
      `shares` (the builder's post-trade total) to the stored count. Either
      way the balance becomes the order's. Every order is recorded. */
  function CommitBuy(b: Book, ticker: string, o: BuyOrder): (r: Book)
    requires WellFormedBuy(o)
    ensures r.buys == b.buys + [o] && r.sells == b.sells
    ensures o.status != Filled ==> r.positions == b.positions && r.balance == b.balance
    ensures o.status == Filled ==> r.balance == o.balance
    ensures o.status == Filled ==> r.positions.Keys == b.positions.Keys + {ticker}
    ensures o.status == Filled && ticker !in b.positions ==>
      r.positions[ticker] == Position(o.shares.value, [o], [])
    ensures o.status == Filled && ticker in b.positions ==>
      var p := b.positions[ticker];
      r.positions[ticker] == Position(p.shares + o.shares.value, p.buys + [o], p.sells)
    ensures forall t :: t in b.positions && t != ticker ==> r.positions[t] == b.positions[t]
  {
    var positions :=
      if o.status != Filled then b.positions
      else if ticker in b.positions then
        var p := b.positions[ticker];
        b.positions[ticker := Position(p.shares + o.shares.value, p.buys + [o], p.sells)]
      else b.positions[ticker := Position(o.shares.value, [o], [])];
    var balance := if o.status == Filled then o.balance else b.balance;
    Book(positions, balance, b.buys + [o], b.sells)
  }

  /** Commit a sell order, mirroring `CommitBuy`: the order's `shares` is
      added to an existing position's count. */
  function CommitSell(b: Book, ticker: string, o: SellOrder): (r: Book)
    ensures r.sells == b.sells + [o] && r.buys == b.buys
    ensures o.status != Filled ==> r.positions == b.positions && r.balance == b.balance
    ensures o.status == Filled ==> r.balance == o.balance
    ensures o.status == Filled ==> r.positions.Keys == b.positions.Keys + {ticker}
    ensures o.status == Filled && ticker !in b.positions ==>
      r.positions[ticker] == Position(o.shares, [], [o])
    ensures o.status == Filled && ticker in b.positions ==>
      var p := b.positions[ticker];
      r.positions[ticker] == Position(p.shares + o.shares, p.buys, p.sells + [o])
    ensures forall t :: t in b.positions && t != ticker ==> r.positions[t] == b.positions[t]
  {
    var positions :=
      if o.status != Filled then b.positions
      else if ticker in b.positions then
        var p := b.positions[ticker];
        b.positions[ticker := Position(p.shares + o.shares, p.buys, p.sells + [o])]
      else b.positions[ticker := Position(o.shares, [], [o])];
    var balance := if o.status == Filled then o.balance else b.balance;
    Book(positions, balance, b.buys, b.sells + [o])
  }

  /** A filled sell on an existing position adds the order's share count to
      the stored count rather than subtracting it, so a sell of a
      non-negative count never lowers the holding the ledger reports. */
  lemma FilledSellNeverLowersCount(b: Book, ticker: string, o: SellOrder)
    requires o.status == Filled && ticker in b.positions
    ensures var r := CommitSell(b, ticker, o);
            && ticker in r.positions
            && r.positions[ticker].shares == b.positions[ticker].shares + o.shares
            && (o.shares >= 0 ==> OwnedShares(r.positions, ticker) >= OwnedShares(b.positions, ticker))
  {
  }

  /** Shares acquired over a list of buy orders (unfilled ones count zero). */
  function NetAcquired(buys: seq<BuyOrder>): int
  {
    if |buys| == 0 then 0 else Acquired(buys[0]) + NetAcquired(buys[1..])
  }

  /** The intended ledger invariant for a buy-only position: the stored
      count is the net number of shares its filled buys acquired. */
  predicate Reconciles(p: Position) {
    p.sells == [] && p.shares == NetAcquired(p.buys)
  }

  lemma {:induction false} NetAcquiredAppend(buys: seq<BuyOrder>, o: BuyOrder)
    ensures NetAcquired(buys + [o]) == NetAcquired(buys) + Acquired(o)
  {
    if |buys| == 0 {
      assert [] + [o] == [o];
      assert [o][1..] == [];
    } else {
      assert (buys + [o])[0] == buys[0];
      assert (buys + [o])[1..] == buys[1..] + [o];
      NetAcquiredAppend(buys[1..], o);
    }
  }

  /** A ticker's first filled buy opens a position that reconciles, when
      the order was sized from the (zero) count the ledger reports. */
  lemma {:induction false} FirstFilledBuyReconciles(b: Book, ticker: string, o: BuyOrder)
    requires WellFormedBuy(o) && o.status == Filled
    requires ticker !in b.positions
    requires o.prevShares == OwnedShares(b.positions, ticker)
    ensures Reconciles(CommitBuy(b, ticker, o).positions[ticker])
  {
    NetAcquiredAppend([], o);
    assert [] + [o] == [o];
  }

  /** On an existing, reconciling position a filled buy overstates the
      holding by exactly the shares held before it: the post-trade total is
      added on top of the old count. */
  lemma {:induction false} RepeatFilledBuyOvercounts(b: Book, ticker: string, o: BuyOrder)
    requires WellFormedBuy(o) && o.status == Filled
    requires ticker in b.positions && Reconciles(b.positions[ticker])
    requires o.prevShares == OwnedShares(b.positions, ticker)
    ensures var p := CommitBuy(b, ticker, o).positions[ticker];
            p.shares == NetAcquired(p.buys) + b.positions[ticker].shares
  {
    NetAcquiredAppend(b.positions[ticker].buys, o);
  }
}

=== FILE: market.dfy ===
/** Market-state fields refreshed from the last row of a node's daily and
    minute tables. Each field is overwritten only when its column exists; a
    close also becomes the trade price, and the first non-zero close seen
    becomes the starting close. A cell that cannot be coerced to a number
    stops the refresh, keeping the updates made so far. */
module Market {
  import opened Results
  import opened Dataset

  /** Prices in cents, volumes as counts. `today*` come from the daily
      table, `latest*` from the minute table. */
  datatype MarketState = MarketState(
    todayHigh: int, todayLow: int, todayOpen: int, todayClose: int, todayVolume: int,
    latestHigh: int, latestLow: int, latestOpen: int, latestClose: int, latestVolume: int,
    tradePrice: Cents,
    startingClose: Cents,
    ask: Cents,
    bid: Cents)

  const InitialMarket: MarketState := MarketState(0, 0, 0, 0, 0, 0, 0, 0, 0, 0, 0, 0, 0, 0)

  datatype Source = Daily | Minute

  datatype Field = High | Low | Open | Close | Volume

  type Update = (Source, Field)

  /** The order in which the refresh reads cells. */
  const RefreshOrder: seq<Update> := [
    (Daily, High), (Daily, Low), (Daily, Open), (Daily, Close), (Daily, Volume),
    (Minute, High), (Minute, Low), (Minute, Open), (Minute, Close), (Minute, Volume)]

  function ColumnName(f: Field): string {
    match f
    case High => "high"
    case Low => "low"
    case Open => "open"
    case Close => "close"
    case Volume => "volume"
  }

  function Get(m: MarketState, src: Source, f: Field): int {
    match (src, f)
    case (Daily, High) => m.todayHigh
    case (Daily, Low) => m.todayLow
    case (Daily, Open) => m.todayOpen
    case (Daily, Close) => m.todayClose
    case (Daily, Volume) => m.todayVolume
    case (Minute, High) => m.latestHigh
    case (Minute, Low) => m.latestLow
    case (Minute, Open) => m.latestOpen
    case (Minute, Close) => m.latestClose
    case (Minute, Volume) => m.latestVolume
  }

  /** Store a coerced cell in its field; a close also sets the trade price
      and, while it is still zero, the starting close. */
  function Set(m: MarketState, src: Source, f: Field, v: int): (r: MarketState)
    ensures Get(r, src, f) == v
    ensures forall s, g :: (s, g) != (src, f) ==> Get(r, s, g) == Get(m, s, g)
    ensures f == Close ==> r.tradePrice == v
    ensures f == Close ==> r.startingClose == (if m.startingClose == 0 then v else m.startingClose)
    ensures f != Close ==> r.tradePrice == m.tradePrice && r.startingClose == m.startingClose
    ensures r.ask == m.ask && r.bid == m.bid
  {
    var m1 := match (src, f)
      case (Daily, High) => m.(todayHigh := v)
      case (Daily, Low) => m.(todayLow := v)
      case (Daily, Open) => m.(todayOpen := v)
      case (Daily, Close) => m.(todayClose := v)
      case (Daily, Volume) => m.(todayVolume := v)
      case (Minute, High) => m.(latestHigh := v)
      case (Minute, Low) => m.(latestLow := v)
      case (Minute, Open) => m.(latestOpen := v)
      case (Minute, Close) => m.(latestClose := v)
      case (Minute, Volume) => m.(latestVolume := v);
    if f == Close then
      m1.(tradePrice := v, startingClose := if m.startingClose == 0 then v else m.startingClose)
    else m1
  }

  /** Numeric coercion of a cell; only numbers coerce. */
  function Coerce(v: Value): Option<int> {
    if v.Num? then Some(v.n) else None
  }

  function TableFor(src: Source, daily: Table, minute: Table): Table {
    if src == Daily then daily else minute
  }

  /** Whether `u` reads a column its table has. */
  predicate Present(u: Update, daily: Table, minute: Table) {
    ColumnName(u.1) in TableFor(u.0, daily, minute).columns
  }

  /** The coerced last cell `u` reads, if it coerces (`None`: no rows, or a
      cell that is not a number). */
  function Cell(u: Update, daily: Table, minute: Table): Option<int> {
    match LastValue(TableFor(u.0, daily, minute), ColumnName(u.1))
    case Some(v) => Coerce(v)
    case None => None
  }

  /** One update: a no-op when the column is absent, a store when the last
      cell coerces, a failure (`None`) otherwise. */
  function Apply(m: MarketState, u: Update, daily: Table, minute: Table): (r: Option<MarketState>)
    ensures !Present(u, daily, minute) ==> r == Some(m)
    ensures Present(u, daily, minute) ==>
      (r.None? <==> Cell(u, daily, minute).None?) &&
      (r.Some? ==> r.value == Set(m, u.0, u.1, Cell(u, daily, minute).value))
  {
    if !Present(u, daily, minute) then Some(m)
    else match Cell(u, daily, minute)
      case Some(v) => Some(Set(m, u.0, u.1, v))
      case None => None
  }

  /** The refreshed state and whether an update failed part-way. */
  datatype Refresh = Refresh(market: MarketState, failed: bool)

  /** Apply `updates` in order, stopping at the first failure. */
  function Run(m: MarketState, updates: seq<Update>, daily: Table, minute: Table): Refresh
    decreases |updates|
  {
    if |updates| == 0 then Refresh(m, false)
    else match Apply(m, updates[0], daily, minute)
      case None => Refresh(m, true)
      case Some(m1) => Run(m1, updates[1..], daily, minute)
  }

  /** The market-state refresh of one dataset load. */
  function RefreshPrices(m: MarketState, daily: Table, minute: Table): (r: Refresh)
    ensures r.market.ask == m.ask && r.market.bid == m.bid
    ensures m.startingClose != 0 ==> r.market.startingClose == m.startingClose
  {
    QuoteKept(m, RefreshOrder, daily, minute);
    assert m.startingClose != 0 ==> Run(m, RefreshOrder, daily, minute).market.startingClose == m.startingClose by {
      if m.startingClose != 0 { StartingCloseKept(m, RefreshOrder, daily, minute); }
    }
    Run(m, RefreshOrder, daily, minute)
  }

  /** A field whose column is absent keeps its value. */
  lemma {:induction false} AbsentColumnKept(
    m: MarketState, updates: seq<Update>, daily: Table, minute: Table, src: Source, f: Field)
    requires !Present((src, f), daily, minute)
    ensures Get(Run(m, updates, daily, minute).market, src, f) == Get(m, src, f)
    decreases |updates|
  {
    if |updates| > 0 {
      match Apply(m, updates[0], daily, minute)
      case None =>
      case Some(m1) =>
        AbsentColumnKept(m1, updates[1..], daily, minute, src, f);
    }
  }

  /** A starting close once set is never replaced. */
  lemma {:induction false} StartingCloseKept(
    m: MarketState, updates: seq<Update>, daily: Table, minute: Table)
    requires m.startingClose != 0
    ensures Run(m, updates, daily, minute).market.startingClose == m.startingClose
    decreases |updates|
  {
    if |updates| > 0 {
      match Apply(m, updates[0], daily, minute)
      case None =>
      case Some(m1) =>
        StartingCloseKept(m1, updates[1..], daily, minute);
    }
  }

  /** The refresh never touches the quote fields. */
  lemma {:induction false} QuoteKept(m: MarketState, updates: seq<Update>, daily: Table, minute: Table)
    ensures var r := Run(m, updates, daily, minute).market;
            r.ask == m.ask && r.bid == m.bid
    decreases |updates|
  {
    if |updates| > 0 {
      match Apply(m, updates[0], daily, minute)
      case None =>
      case Some(m1) =>
        QuoteKept(m1, updates[1..], daily, minute);
    }
  }

  /** The refresh fails exactly when some update reads a present column
      whose last cell does not coerce. */
  lemma {:induction false} FailsIffBadCell(m: MarketState, updates: seq<Update>, daily: Table, minute: Table)
    ensures Run(m, updates, daily, minute).failed <==>
            exists i :: 0 <= i < |updates| && Present(updates[i], daily, minute)
                                          && Cell(updates[i], daily, minute).None?
    decreases |updates|
  {
    if |updates| > 0 {
      match Apply(m, updates[0], daily, minute)
      case None =>
        assert Present(updates[0], daily, minute) && Cell(updates[0], daily, minute).None?;
      case Some(m1) =>
        FailsIffBadCell(m1, updates[1..], daily, minute);
        assert forall i :: 1 <= i < |updates| ==> updates[i] == updates[1..][i - 1];
        if exists i :: 0 <= i < |updates| && Present(updates[i], daily, minute)
                                          && Cell(updates[i], daily, minute).None? {
          var i :| 0 <= i < |updates| && Present(updates[i], daily, minute)
                                       && Cell(updates[i], daily, minute).None?;
          assert i > 0;
          assert updates[1..][i - 1] == updates[i];
        }
    }
  }

  /** A failed refresh keeps exactly the updates before the failing one and
      abandons the rest. */
  lemma {:induction false} FailureKeepsPrefix(m: MarketState, updates: seq<Update>, daily: Table, minute: Table)
    requires Run(m, updates, daily, minute).failed
    ensures exists k ::
              && 0 <= k < |updates|
              && Run(m, updates[..k], daily, minute) == Refresh(Run(m, updates, daily, minute).market, false)
              && Apply(Run(m, updates, daily, minute).market, updates[k], daily, minute).None?
    decreases |updates|
  {
    match Apply(m, updates[0], daily, minute)
    case None =>
      assert updates[..0] == [];
    case Some(m1) =>
      FailureKeepsPrefix(m1, updates[1..], daily, minute);
      var r := Run(m, updates, daily, minute).market;
      var k :| 0 <= k < |updates[1..]| &&
        Run(m1, updates[1..][..k], daily, minute) == Refresh(r, false) &&
        Apply(r, updates[1..][k], daily, minute).None?;
      assert updates[..k + 1][1..] == updates[1..][..k];
      assert updates[..k + 1][0] == updates[0];
  }

  /** The trade price a successful run leaves: the last present close read,
      or `p` when no close column was present. */
  function ClosingPrice(updates: seq<Update>, daily: Table, minute: Table, p: Cents): Cents
    decreases |updates|
  {
    if |updates| == 0 then p
    else
      var u := updates[0];
      var p1 := if u.1 == Close && Present(u, daily, minute) && Cell(u, daily, minute).Some?
                then Cell(u, daily, minute).value else p;
      ClosingPrice(updates[1..], daily, minute, p1)
  }

  lemma {:induction false} TradePriceIsLastClose(m: MarketState, updates: seq<Update>, daily: Table, minute: Table)
    requires !Run(m, updates, daily, minute).failed
    ensures Run(m, updates, daily, minute).market.tradePrice ==
            ClosingPrice(updates, daily, minute, m.tradePrice)
    decreases |updates|
  {
    if |updates| > 0 {
      match Apply(m, updates[0], daily, minute)
      case None =>
      case Some(m1) =>
        TradePriceIsLastClose(m1, updates[1..], daily, minute);
    }
  }

  /** The closing-price fold over the refresh order: the minute close when
      it is present and coerces, else the daily close when that is present
      and coerces, else `p`. */
  lemma RefreshClosingPrice(daily: Table, minute: Table, p: Cents)
    ensures var p3 := if Present((Daily, Close), daily, minute) && Cell((Daily, Close), daily, minute).Some?
                      then Cell((Daily, Close), daily, minute).value else p;
            ClosingPrice(RefreshOrder, daily, minute, p) ==
              if Present((Minute, Close), daily, minute) && Cell((Minute, Close), daily, minute).Some?
              then Cell((Minute, Close), daily, minute).value else p3
  {
    var p3 := if Present((Daily, Close), daily, minute) && Cell((Daily, Close), daily, minute).Some?
              then Cell((Daily, Close), daily, minute).value else p;
    var p8 := if Present((Minute, Close), daily, minute) && Cell((Minute, Close), daily, minute).Some?
              then Cell((Minute, Close), daily, minute).value else p3;
    assert RefreshOrder[3] == (Daily, Close);
    assert RefreshOrder[8] == (Minute, Close);
    assert ClosingPrice(RefreshOrder[9..], daily, minute, p8) == p8;
    assert ClosingPrice(RefreshOrder[8..], daily, minute, p3) == p8;
    assert ClosingPrice(RefreshOrder[7..], daily, minute, p3) == p8;
    assert ClosingPrice(RefreshOrder[6..], daily, minute, p3) == p8;
    assert ClosingPrice(RefreshOrder[5..], daily, minute, p3) == p8;
    assert ClosingPrice(RefreshOrder[4..], daily, minute, p3) == p8;
    assert ClosingPrice(RefreshOrder[3..], daily, minute, p) == p8;
    assert ClosingPrice(RefreshOrder[2..], daily, minute, p) == p8;
    assert ClosingPrice(RefreshOrder[1..], daily, minute, p) == p8;
  }

  /** After a successful refresh the trade price is the minute close when
      the minute table has a close column, else the daily close when the
      daily table has one, else unchanged. */
  lemma TradePricePrefersMinute(m: MarketState, daily: Table, minute: Table)
    requires !RefreshPrices(m, daily, minute).failed
    ensures var r := RefreshPrices(m, daily, minute).market;
            if "close" in minute.columns then Some(r.tradePrice) == Cell((Minute, Close), daily, minute)
            else if "close" in daily.columns then Some(r.tradePrice) == Cell((Daily, Close), daily, minute)
            else r.tradePrice == m.tradePrice
  {
    TradePriceIsLastClose(m, RefreshOrder, daily, minute);
    RefreshClosingPrice(daily, minute, m.tradePrice);
    assert RefreshOrder[3] == (Daily, Close) && RefreshOrder[8] == (Minute, Close);
    if "close" in daily.columns {
      PresentCellCoerces(m, RefreshOrder, daily, minute, 3);
    }
    if "close" in minute.columns {
      PresentCellCoerces(m, RefreshOrder, daily, minute, 8);
    }
  }

  /** After a successful run, every update that reads a present column read
      a cell that coerces. */
  lemma PresentCellCoerces(m: MarketState, updates: seq<Update>, daily: Table, minute: Table, i: int)
    requires !Run(m, updates, daily, minute).failed
    requires 0 <= i < |updates| && Present(updates[i], daily, minute)
    ensures Cell(updates[i], daily, minute).Some?
  {
    FailsIffBadCell(m, updates, daily, minute);
  }

  /** Updates whose columns are all absent neither change nor fail anything. */
  lemma {:induction false} AbsentUpdatesNoChange(m: MarketState, updates: seq<Update>, daily: Table, minute: Table)
    requires forall i :: 0 <= i < |updates| ==> !Present(updates[i], daily, minute)
    ensures Run(m, updates, daily, minute) == Refresh(m, false)
    decreases |updates|
  {
    if |updates| > 0 {
      assert !Present(updates[0], daily, minute);
      assert forall i :: 0 <= i < |updates[1..]| ==> updates[1..][i] == updates[i + 1];
      AbsentUpdatesNoChange(m, updates[1..], daily, minute);
    }
  }

  /** Tables with no columns leave the market state as it was. */
  lemma NoColumnsNoChange(m: MarketState, updates: seq<Update>, daily: Table, minute: Table)
    requires daily.columns == {} && minute.columns == {}
    ensures Run(m, updates, daily, minute) == Refresh(m, false)
  {
    AbsentUpdatesNoChange(m, updates, daily, minute);
  }
}

=== FILE: orders.dfy ===
/** The simulated buy-order builder, and the shape of the sell orders the
    algorithm receives from its (unmodelled) sell-order builder. */
module Orders {
  import opened Results
  import opened Dataset

  /** Trade statuses an order can carry. */
  datatype Status = Open | Filled | NotEnoughFunds | NotEnoughShares

  /** A buy order record. `shares` is the share count the order reports: the
      post-trade total on a fill, the requested count (possibly `None`) on
      an unfilled auto-fill-off order, the pre-trade count otherwise.
      `buyPrice` is the computed cost of the trade, when it was computed.
      `stamped` says whether the order got a creation timestamp. */
  datatype BuyOrder = BuyOrder(
    ticker: string,
    status: Status,
    balance: Cents,
    shares: Option<int>,
    buyPrice: Option<Cents>,
    prevBalance: Cents,
    prevShares: int,
    close: Cents,
    details: Row,
    reason: Option<string>,
    date: Value,
    stamped: bool,
    version: int)

  /** The lowest close (exclusive) at which a buy is attempted: 0.10. */
  const MinClose: Cents := 10

  /** The least tradable capital (exclusive) for a buy: 10.00. */
  const MinTradable: Cents := 1000

  /** Capital left after reserving a commission for both legs of a round trip. */
  function TradableFunds(balance: Cents, commission: Cents): Cents {
    balance - 2 * commission
  }

  /** The first gate of a buy: a usable price and enough tradable capital. */
  predicate PassesFundsGate(close: Cents, tradable: Cents) {
    close > MinClose && tradable > MinTradable
  }

  /** Python falsiness of the optional requested share count. */
  predicate Unrequested(shares: Option<int>) {
    shares.None? || shares.value == 0
  }

  /** The number of shares the buy tries to acquire: the requested count
      when one is given, else as many as the tradable capital pays for. */
  function SharesToBuy(tradable: Cents, close: Cents, shares: Option<int>): int
    requires close > 0
  {
    if Unrequested(shares) then tradable / close else shares.value
  }

  /** Cost of buying `count` shares at `close`, commission included. */
  function TradeCost(count: int, close: Cents, commission: Cents): Cents {
    count * close + commission
  }

  /** Build a buy order for `ticker` against the current `balance`.
      Every outcome echoes the inputs; only a fill moves money or shares. */
  function BuildBuyOrder(
    ticker: string,
    numOwned: int,
    close: Cents,
    balance: Cents,
    commission: Cents,
    date: Value,
    details: Row,
    shares: Option<int>,
    version: int,
    autoFill: bool,
    reason: Option<string>): (r: BuyOrder)
    ensures r.ticker == ticker && r.close == close && r.date == date
    ensures r.details == details && r.reason == reason && r.version == version
    ensures r.prevBalance == balance && r.prevShares == numOwned
    ensures r.status == Open || r.status == Filled || r.status == NotEnoughFunds
    ensures !PassesFundsGate(close, TradableFunds(balance, commission)) ==>
      && r.status == NotEnoughFunds
      && r.balance == balance
      && r.shares == Some(numOwned)
      && r.buyPrice.None?
      && !r.stamped
    ensures PassesFundsGate(close, TradableFunds(balance, commission)) ==>
      var count := SharesToBuy(TradableFunds(balance, commission), close, shares);
      && r.buyPrice == Some(TradeCost(count, close, commission))
      && (r.stamped <==> count > 0 && TradeCost(count, close, commission) <= balance)
      && (count <= 0 ==> r.status == NotEnoughFunds)
      && (TradeCost(count, close, commission) > balance ==> r.status == NotEnoughFunds)
      && (r.status == Filled ==> r.shares == Some(numOwned + count))
    ensures r.status == Filled <==> autoFill && r.stamped
    ensures r.status == Open <==> !autoFill && r.stamped
    ensures r.status == Filled ==> r.buyPrice.Some? && r.balance == balance - r.buyPrice.value && r.balance >= 0
    ensures r.status != Filled ==> r.balance == balance
    ensures r.status == Open ==> r.shares == shares
    ensures r.status == NotEnoughFunds ==> r.shares == Some(numOwned)
  {
    var tradable := TradableFunds(balance, commission);
    if PassesFundsGate(close, tradable) then
      var count := SharesToBuy(tradable, close, shares);
      var cost := TradeCost(count, close, commission);
      if count > 0 then
        if cost > balance then
          BuyOrder(ticker, NotEnoughFunds, balance, Some(numOwned), Some(cost),
                   balance, numOwned, close, details, reason, date, false, version)
        else if autoFill then
          BuyOrder(ticker, Filled, balance - cost, Some(numOwned + count), Some(cost),
                   balance, numOwned, close, details, reason, date, true, version)
        else
          BuyOrder(ticker, Open, balance, shares, Some(cost),
                   balance, numOwned, close, details, reason, date, true, version)
      else
        BuyOrder(ticker, NotEnoughFunds, balance, Some(numOwned), Some(cost),
                 balance, numOwned, close, details, reason, date, false, version)
    else
      BuyOrder(ticker, NotEnoughFunds, balance, Some(numOwned), None,
               balance, numOwned, close, details, reason, date, false, version)
  }

  /** Shares a buy order actually acquired: the fill's post-trade total less
      the holding it started from; nothing for an unfilled order. */
  function Acquired(o: BuyOrder): int {
    if o.status == Filled && o.shares.Some? then o.shares.value - o.prevShares else 0
  }

  /** A filled buy reports a share count (true of every order the builder
      produces). */
  predicate WellFormedBuy(o: BuyOrder) {
    o.status == Filled ==> o.shares.Some?
  }

  lemma BuiltOrdersAreWellFormed(
    ticker: string, numOwned: int, close: Cents, balance: Cents, commission: Cents,
    date: Value, details: Row, shares: Option<int>, version: int, autoFill: bool,
    reason: Option<string>)
    ensures WellFormedBuy(BuildBuyOrder(ticker, numOwned, close, balance, commission,
                                        date, details, shares, version, autoFill, reason))
  {
  }

  /** A filled buy acquires exactly the sized count, which is positive. */
  lemma FilledBuyAcquiresCount(
    ticker: string, numOwned: int, close: Cents, balance: Cents, commission: Cents,
    date: Value, details: Row, shares: Option<int>, version: int, autoFill: bool,
    reason: Option<string>)
    requires BuildBuyOrder(ticker, numOwned, close, balance, commission, date, details,
                           shares, version, autoFill, reason).status == Filled
    ensures close > 0
    ensures var o := BuildBuyOrder(ticker, numOwned, close, balance, commission, date,
                                   details, shares, version, autoFill, reason);
            var count := SharesToBuy(TradableFunds(balance, commission), close, shares);
            Acquired(o) == count && count > 0
  {
  }

  /** The automatic share count is the largest whole number of shares whose
      price fits in the tradable capital. */
  lemma AutoSizeIsLargestAffordable(balance: Cents, commission: Cents, close: Cents)
    requires PassesFundsGate(close, TradableFunds(balance, commission))
    ensures var tradable := TradableFunds(balance, commission);
            var n := SharesToBuy(tradable, close, None);
            n >= 0 && n * close <= tradable < (n + 1) * close
  {
    var tradable := TradableFunds(balance, commission);
    var n := tradable / close;
    assert tradable == n * close + tradable % close;
  }

  /** With a non-negative commission an automatically sized buy that passes
      the first gate never runs short of cash: it fills whenever at least one
      share is affordable, and leaves at least one commission in the balance. */
  lemma {:induction false} AutoSizedBuyFills(
    ticker: string, numOwned: int, close: Cents, balance: Cents, commission: Cents,
    date: Value, details: Row, version: int, reason: Option<string>)
    requires commission >= 0
    requires PassesFundsGate(close, TradableFunds(balance, commission))
    requires close <= TradableFunds(balance, commission)
    ensures var o := BuildBuyOrder(ticker, numOwned, close, balance, commission, date,
                                   details, None, version, true, reason);
            o.status == Filled && o.balance >= commission
  {
    var tradable := TradableFunds(balance, commission);
    AutoSizeIsLargestAffordable(balance, commission, close);
    var n := SharesToBuy(tradable, close, None);
    assert n >= 1;
    assert TradeCost(n, close, commission) <= balance - commission;
  }

  /** A requested count that is negative never fills, and moves nothing. */
  lemma NegativeRequestRejected(
    ticker: string, numOwned: int, close: Cents, balance: Cents, commission: Cents,
    date: Value, details: Row, k: int, version: int, autoFill: bool, reason: Option<string>)
    requires k < 0
    ensures var o := BuildBuyOrder(ticker, numOwned, close, balance, commission, date,
                                   details, Some(k), version, autoFill, reason);
            o.status == NotEnoughFunds && o.balance == balance && o.shares == Some(numOwned)
  {
  }

  /** Worked case: 1000.00 balance, 6.00 commission, close 270.00, nothing
      requested: 988.00 tradable buys 3 shares for 816.00, leaving 184.00. */
  lemma WorkedBuyFills()
    ensures var o := BuildBuyOrder("SPY", 0, 27000, 100000, 600, Text("2018-11-02"),
                                   map[], None, 1, true, None);
            && o.status == Filled
            && o.buyPrice == Some(81600)
            && o.balance == 18400
            && o.shares == Some(3)
            && o.prevBalance == 100000
  {
    assert TradableFunds(100000, 600) / 27000 == 3;
  }

  /** Worked case: 5.00 balance and 6.00 commission cannot buy at any price. */
  lemma WorkedBuyShortOfFunds(close: Cents)
    ensures var o := BuildBuyOrder("SPY", 0, close, 500, 600, Text("2018-11-02"),
                                   map[], None, 1, true, None);
            o.status == NotEnoughFunds && o.balance == 500 && o.shares == Some(0)
  {
  }

  /** What the algorithm hands its sell-order builder. */
  datatype SellRequest = SellRequest(
    ticker: string,
    close: Value,
    numOwned: int,
    shares: Option<int>,
    balance: Cents,
    commission: Cents,
    date: Value,
    details: Row,
    reason: Option<string>)

  /** The fields of a sell order the algorithm reads. */
  datatype SellOrder = SellOrder(
    status: Status,
    shares: int,
    balance: Cents,
    sellPrice: Option<Cents>)

  /** The sell-order builder, whose body is not part of this model; `None`
      means it raised. */
  type SellBuilder = SellRequest -> Option<SellOrder>
}

=== FILE: results.dfy ===
/** Failure-compatible wrappers used throughout the model: `Option` for the
    source's `None`-or-value fields and `Result` for operations that can raise. */
module Results {

  datatype Option<+T> = None | Some(value: T) {

    /** The wrapped value, or `default` when absent (Python's `d.get(k, default)`). */
    function GetOr(default: T): T {
      match this
      case Some(v) => v
      case None => default
    }
  }

  /** `Failure` stands for an exception that escapes the operation. */
  datatype Result<+T, +E> = Success(value: T) | Failure(error: E) {

    predicate IsFailure() {
      Failure?
    }

    function PropagateFailure<U>(): Result<U, E>
      requires Failure?
    {
      Failure(error)
    }

    function Extract(): T
      requires Success?
    {
      value
    }
  }
}
